=== FILE: README.md ===
# chocolate: the token and authorization core, in Dafny

This project models the token and authorization core of the chocolate users service. That core covers:

- how JSON Web Token claim sets (RFC 7519 section 4.1) are built and validated;
- how tokens are signed with RS256 (RFC 7518 section 3.3) and verified;
- how login and refresh issue access/refresh pairs;
- how each request is admitted or refused by the bearer gate (RFC 6750 section 2.1) under the per-route policy table;
- the checks the users endpoints run before they touch storage.

The core also has some small pure helpers, modelled with it:

- the user and login-body validators;
- the PostgreSQL SQLSTATE classifier;
- the SET-clause builder;
- the X-Forwarded-For / Forwarded client-address extraction (RFC 7239 section 4);
- the RFC 822 style mail layout.

Everything is pure functions over immutable datatypes. Parts of the service that are not pure become inputs:

- The clock and fresh UUIDs travel in an `Issuance` or as `now`/`id` parameters.
- The RSA key pair is a `Keys` value with two abstract operations, `sign` and `decode`. One property is assumed of it, stated as the predicate `Jwt.HonestKeys`: what the private key signs, the public key decodes back unchanged, with the algorithm and a good signature. Every round-trip lemma takes this as a precondition.
- jwt-go's standard-claims check (expiry, issued-at, not-before at verification time) is a parameter `standard: Claims -> Check`. A failed `Check` always carries at least one error bit, as jwt-go's ValidationError does.
- bcrypt is a `PasswordCheck` function, or a `hash` function that returns `Hashed`/`HashFailed`.
- SQL queries are `run` functions returning the returned row or the driver error (`Outcome`).
- The query texts are kept character for character, with their line break and tabs, because a rendered database error carries the query into the response message.
- Looked-up users arrive as `Fetched`.
- The rendered mail template arrives as `Processed`.
- The presence of the database handle is `haveDb`.
- Header values and path variables are plain strings and maps.

Modules follow the source files:

| module | file |
|---|---|
| `Strs`, `Opt` | `strs.dfy` (strings.Split/Join/SplitN/ToLower and decimal formatting) |
| `ApiErrors` | `api_errors.dfy` |
| `JwtClaims` | `claims.dfy` |
| `Jwt` | `jwt.dfy` |
| `AuthUtils` | `auth_utils.dfy` |
| `AuthMiddleware` | `middleware.dfy` |
| `Routes` | `routes.dfy` |
| `AuthModel` | `auth_model.dfy` |
| `UserModel` | `user_model.dfy` |
| `Database` | `database.dfy` |
| `UsersDb` | `users_db.dfy` |
| `AuthHandler` | `auth_handler.dfy` |
| `UsersHandler` | `users_handler.dfy` |
| `Metrics` | `metrics.dfy` |
| `Email` | `email.dfy` |

Where the source and its own comments disagree, the model follows the code. Examples:

- The route table lists "client" nowhere, yet login issues that role.
- `CodeUnauthNotActive` is `"104"`, without the leading zero.
- The key callback refuses every method that is not jwt-go's RSA PKCS#1 v1.5 type. PS256/384/512 are a different type there, so `Jwt.IsRSA` holds only for RS256/384/512.

## Model

| member | source | states |
|---|---|---|
| ApiErrors.WireCodes | src/chocolate/service/api/shared/apierror/error-codes.go:6-40 | Distinct api codes go on the wire as distinct strings. Every code except the not-yet-active one (sent as "104") and the empty header code has four digits. |
| JwtClaims.ConstantsDistinct | src/chocolate/service/shared/auth/jwt/claims.go:12-23 | The three token types are pairwise distinct, and so are the three roles. |
| JwtClaims.New | src/chocolate/service/shared/auth/jwt/claims.go:41-48 | A fresh claim set has audience = issuer = the configured audience, the given id and auth type "bearer". Everything else is unset. |
| JwtClaims.Valid | src/chocolate/service/shared/auth/jwt/claims.go:51-73 | A standard-claims failure is returned unchanged, before role and uid are looked at. An empty role, or a role with an empty uid, fails as malformed. The claims pass exactly when the standard check passes and both are non-empty. |
| Jwt.Parse | src/chocolate/service/shared/auth/jwt/jwt.go:56-69 | A parse is valid exactly when claims decoded and no error bit is set. A valid parse implies an RSA-family header algorithm and a good signature. |
| Jwt.VerifyError | src/chocolate/service/shared/auth/jwt/jwt.go:74-89 | Refusals are 401. The code precedence is malformed, then expired, then not-yet-valid, then plain unauthorized, whatever other bits are set. |
| Jwt.Verify | src/chocolate/service/shared/auth/jwt/jwt.go:53-89 | A token with a non-RSA algorithm is never accepted. Claims come back exactly when they decode with an RSA algorithm, a good signature and passing Valid, and then they come back unchanged. Accepted claims always have a non-empty role and uid. Every refusal is 401 and carries VerifyError of the parse's error bits, so the malformed > expired > not-yet-valid > unauthorized precedence holds for Verify itself. |
| Jwt.Create | src/chocolate/service/shared/auth/jwt/jwt.go:94-102 | Signing always uses RS256. A token comes back exactly when signing succeeds. A failure is a 500 with the internal-JWT code. |
| Jwt.CreateThenVerify | src/chocolate/service/shared/auth/jwt/jwt.go:53-102 | Under honest keys, a created token decodes to RS256, a good signature and the original claims. It verifies exactly when the standard check passes and role and uid are both non-empty, and then it yields exactly those claims. |
| AuthUtils.AccessClaims | src/chocolate/service/shared/auth/utils/utils.go:42-56 | Access claims are issued at and not before `now`, expire at now + 604800, and have subject "/"+role+"s/"+uid and type access_token. Role, uid and email flag come from the inputs. |
| AuthUtils.RefreshClaims | src/chocolate/service/shared/auth/utils/utils.go:58-72 | Refresh claims live for the requested lifetime from `now`. Their subject is the access claims' id; role and uid are copied; the type is refresh_token; the email flag is never set. |
| AuthUtils.GenerateAuthResponse | src/chocolate/service/shared/auth/utils/utils.go:13-40 | The result is either both signed tokens of the pair, or the first signing error (500, internal-JWT), never half a pair. |
| AuthUtils.IssuedPairIsBound | src/chocolate/service/shared/auth/utils/utils.go:13-72 | Under honest keys the two issued tokens decode to claims where the refresh subject is the access id. Both name the given user and role. The access token lives seven days and the refresh token exactly the requested lifetime. |
| AuthMiddleware.ExtractAuthFromHeader | src/chocolate/service/shared/auth/auth.middleware.go:68-94 | An empty header is "Missing Authorization Header". A first word that is not "bearer" in any letter case is "Wrong type". A bearer word not followed by exactly one more word is "Malformed Authorization Header". Every refusal is 401. |
| AuthMiddleware.BearerWordHasNoSpace | src/chocolate/service/shared/auth/auth.middleware.go:80-82 | A word that lower-cases to "bearer" has six characters and no space. |
| AuthMiddleware.BearerHeaderShape | src/chocolate/service/shared/auth/auth.middleware.go:80-89 | A header is accepted if and only if it is "bearer" in any case, one space, then a space-free token. The accepted token is everything after that space. |
| AuthMiddleware.ForeignSchemeScenario | src/chocolate/service/shared/auth/auth.middleware.go:90-92 | "Token abc" is refused as the wrong header type. |
| AuthMiddleware.CapitalisedBearer | src/chocolate/service/shared/auth/auth.middleware.go:81-82 | The capitalised scheme "Bearer" folds to the case label "bearer". |
| AuthMiddleware.MissingTokenScenario | src/chocolate/service/shared/auth/auth.middleware.go:83-87 | "Bearer" with no token is refused as malformed. |
| AuthMiddleware.ClaimsGate | src/chocolate/service/shared/auth/auth.middleware.go:38-59 | Checks run in order: audience (401), then role membership (403), then email confirmation for non-admins when required (403, not-confirmed). The claims pass exactly when all three hold, and admin skips the email check. |
| AuthMiddleware.Validate | src/chocolate/service/shared/auth/auth.middleware.go:16-66 | Extraction and Verify errors are passed on unchanged and stop the chain. A claim-check refusal carries ClaimsGate's own error (wrong audience, role refused, email not confirmed). A request is admitted exactly when extraction, verification and the claim checks all pass. The admitted claims are exactly the verified ones. |
| AuthMiddleware.AdminSkipsEmailCheck | src/chocolate/service/shared/auth/auth.middleware.go:52-59 | For the same unconfirmed claims, role admin passes an email-checking policy and role user is refused "Email not confirmed". |
| Routes.RoleSet | src/chocolate/service/api/routes.go:50-53 | The role set contains exactly the listed roles. |
| Routes.NewRouteAuth | src/chocolate/service/api/routes.go:49-58 | A policy's roles are exactly the listed ones, and the email flag is copied. |
| Routes.TablePolicy | src/chocolate/service/api/routes.go:83-127 | The table's eight routes: verb, pattern and policy of each. The refresh route admits user/business/admin without the email check. GET/DELETE /v1/users(/{id}) admit admin only. GET/PUT /v1/users/{id} admit user and admin with the email check. Login, sign-up and confirm are open. |
| Routes.BusinessReachesNoUsersRoute | src/chocolate/service/api/routes.go:97-121 | No policy of a /v1/users route admits role "business". |
| Routes.NoPolicyListsClient | src/chocolate/service/api/routes.go:92-121 | No policy in the table lists role "client". |
| Routes.Dispatch | src/chocolate/service/api/router.go:35-38 | A route runs behind the gate if and only if it declares a policy, and then the gate uses that policy's roles and email flag. |
| Routes.HonestTokenThroughGate | src/chocolate/service/shared/auth/auth.middleware.go:27-64 | Under honest keys, "Bearer "+Create(c) for claims that pass Valid reaches the claim checks with exactly c. It is admitted with c or refused with the claim check's own error. |
| Routes.GateNeverAdmitsClient | src/chocolate/service/api/routes.go:83-127 | Whatever the header, no gated route of the table admits claims whose role is "client". |
| AuthModel.ValidUserAuth | src/chocolate/service/models/auth/auth.model.go:23-31 | A login body is valid if and only if grant_type is "password" and user_type is client, business or admin. An unknown user_type reports "Invalid user_type". A known type with the wrong grant reports "Wrong grant_type". |
| AuthModel.BothWrongReportsUserType | src/chocolate/service/models/auth/auth.model.go:23-30 | When both fields are wrong, the user_type error is the one reported, because the later assignment wins. |
| AuthModel.ValidRefresh | src/chocolate/service/models/auth/auth.model.go:76-81 | A refresh body fails if and only if its token is empty, with "Missing 'refresh_token'". |
| UserModel.Valid | src/chocolate/service/models/users/user.model.go:40-47 | "Missing Username or Password" if and only if there is no id and either credential is empty. "Can't Modify Username or Password" if and only if there is an id and either credential is set. Valid otherwise. |
| UserModel.RefusalsExclusive | src/chocolate/service/models/users/user.model.go:41-44 | The two refusals never coincide: the first needs an empty id, the second a non-empty one. |
| Database.ExactCodesNotServerSide | src/chocolate/service/database/database.go:111-120 | "23505" and "02000" are in neither the 08 class nor the XX class, so the exact-code branches are reachable. |
| Database.FormError | src/chocolate/service/database/database.go:101-132 | Each code is stated as an if-and-only-if. ErrNoRows gives NoRows. A pq code in class 08 or XX gives Internal, checked before the exact codes. 23505 gives AlreadyExists and 02000 gives NoData. Any other pq code gives Execute. A foreign error gives Generic with an empty message. Query, table and inner error are kept. |
| Database.FormErrorRange | src/chocolate/service/database/database.go:101-132 | The classifier only ever yields NoRows, Internal, AlreadyExists, NoData, Execute or Generic. |
| Database.ConnectionFailureScenario | src/chocolate/service/database/database.go:111-123 | 08006 is Internal, 23505 is AlreadyExists and 42P01 is Execute. |
| Database.NewDb | src/chocolate/service/database/database.go:46-83 | An incomplete configuration fails before anything is opened. Otherwise the DSN is built from the config. The result is connected exactly when the config is complete and both open and ping succeed. |
| UsersDb.SetItems | src/chocolate/service/models/users/users.db.go:269-273 | There is one item per field, in field order. Item k is " "+field+" = $"+(k+2). |
| UsersDb.TerminatedIsJoinPlusSeparator | src/chocolate/service/models/users/users.db.go:270-275 | Appending each item followed by a comma gives the comma-join plus one trailing comma, which the final slice removes. |
| UsersDb.FormSetStatement | src/chocolate/service/models/users/users.db.go:261-276 | The loop builds "" for no fields, else "SET" followed by the items joined by ",". |
| UsersDb.ItemReadsBack | src/chocolate/service/models/users/users.db.go:271 | An item cut at its '$' gives back the field text and the placeholder digits, which read back as k+2. |
| UsersDb.SetStatementReadsBack | src/chocolate/service/models/users/users.db.go:268-275 | For non-empty comma-free fields, the statement starts with "SET", and the rest splits on ',' into exactly the items. |
| UsersDb.SetStatementEnding | src/chocolate/service/models/users/users.db.go:275 | A non-empty statement ends with a placeholder digit, never with ",". |
| UsersDb.PlaceholderCount | src/chocolate/service/models/users/users.db.go:268-275 | For '$'-free field names, the statement has exactly one '$' placeholder per field. |
| UsersDb.ItemCount | src/chocolate/service/models/users/users.db.go:271 | Each item carries exactly one placeholder. |
| UsersDb.TerminatedCount | src/chocolate/service/models/users/users.db.go:270-274 | The comma-terminated item list has one placeholder per item. |
| UsersDb.Update | src/chocolate/service/models/users/users.db.go:178-214 | An empty id gives ModelInvalid "Missing ID value" and no query is run. Otherwise the query runs with the id, the confirmation flag and the confirmation time, with `now` when that time is not positive. A driver failure is classified by FormError and leaves the user unchanged. Success takes the returned columns and clears password, confirmation and salt. |
| UsersDb.Insert | src/chocolate/service/models/users/users.db.go:147-175 | The insert gets the credentials and the salt. A failure is classified and leaves the user unchanged. Success takes the new id and creation time and clears the three secrets. |
| UsersDb.UpdateDoesNotLeakSecrets | src/chocolate/service/models/users/users.db.go:206-212 | A successful Update's answer does not depend on the password, confirmation or salt it was given. |
| AuthHandler.LoginLifetime | src/chocolate/service/api/handlers/auth/auth.handler.go:96-101 | The refresh lifetime is 30 days with "remember", otherwise 8 days. Either way it outlives the access token. |
| AuthHandler.LookupError | src/chocolate/service/api/handlers/auth/auth.handler.go:71-81 | An unknown username (NoRows) is 404 "Username X is not registered". Any other lookup error is 500 internal-DB. |
| AuthHandler.FormUserAuthResponse | src/chocolate/service/api/handlers/auth/auth.handler.go:67-105 | A lookup failure maps through LookupError. A wrong password is 401 "Wrong credentials" with no tokens. Otherwise a pair is issued for role "client", the user's id and confirmation, and the remember-dependent lifetime. |
| AuthHandler.FormUserAuthResponseFixed | src/chocolate/service/api/handlers/auth/auth.handler.go:67-105 | The same steps, issuing role "user". |
| AuthHandler.GenerateTokens | src/chocolate/service/api/handlers/auth/auth.handler.go:22-65 | A missing database is 500, a body error is passed on, and an invalid body is 400 with the validator's message. A valid non-client user_type is 501, and only then. A valid client login answers with formUserAuthResponse's pair, or with its error. Issued pairs come only from a client login. |
| AuthHandler.LoginTokenRefusedEverywhere | src/chocolate/service/api/handlers/auth/auth.handler.go:93-103 | Under honest keys, the access token of any successful login, sent as a bearer header, is admitted by no gated route of the table. |
| AuthHandler.FixedLoginTokenAdmitted | src/chocolate/service/api/handlers/auth/auth.handler.go:93-103 | With role "user", a confirmed user's login token is admitted by GET /v1/users/{user_id} with exactly its access claims. |
| AuthHandler.RefreshTokens | src/chocolate/service/api/handlers/auth/auth.handler.go:108-158 | Errors from the body and from Verify are passed on. Checks run in order, each with its own refusal: the HEADER claims' type must be refresh_token ("This is not a refresh token"), the header id must equal the body token's subject ("Refesh Token doesn't match Access Token"), and the user ids must match ("Refesh Token User ID doesn't match Access Token"). A signing error of the new pair is passed on. The new pair keeps the header's role, uid and email flag, with lifetime = body token exp - iat. |
| AuthHandler.RefreshTokensFixed | src/chocolate/service/api/handlers/auth/auth.handler.go:126-138 | The same chain with the BODY token's type checked, each check answering with the same refusal as the original, and a signing error passed on. A pair is issued exactly when every binding holds. |
| AuthHandler.ForeignRefreshRefused | src/chocolate/service/api/handlers/auth/auth.handler.go:134-135 | Corrected, an access token from one pair with the refresh token of a pair under another access id is refused "Refesh Token doesn't match Access Token". |
| AuthHandler.HonestRefreshRefused | src/chocolate/service/api/handlers/auth/auth.handler.go:132-133 | Under honest keys, an honestly issued pair (access claims in the header, refresh token in the body) is always refused "This is not a refresh token". |
| AuthHandler.HonestRefreshServed | src/chocolate/service/api/handlers/auth/auth.handler.go:144-152 | Corrected, the same request is served. The new refresh token lives exactly as long as the old one and names the same user and role. |
| UsersHandler.GetUserID | src/chocolate/service/api/handlers/users/users.handler.go:390-404 | A missing path key is 500 internal. "this" resolves to the caller's uid. "" is 400 bad-params. Any other value is returned as is. |
| UsersHandler.Ownership | src/chocolate/service/api/handlers/users/users.handler.go:164-168 | The refusal is 403 "You can't modify this resource", if and only if the role is "user" and the target is not the caller. |
| UsersHandler.ThisIsOwned | src/chocolate/service/api/handlers/users/users.handler.go:398-399 | "this" always passes the ownership rule. |
| UsersHandler.GetByID | src/chocolate/service/api/handlers/users/users.handler.go:139-187 | Checks run in order: database, path id, ownership. A found user answers 200 with that user. A Generic or Execute lookup error answers 500 "Something went wrong" with the internal-DB code, and a 500 comes from nothing else after the checks. Any other lookup error answers 200 with the empty user. It never panics. |
| UsersHandler.GetThisAnswersCaller | src/chocolate/service/api/handlers/users/users.handler.go:139-187 | GET on "this" answers 200 with the caller's own record, whatever the caller's role. |
| UsersHandler.UpdateDbError | src/chocolate/service/api/handlers/users/users.handler.go:232-243 | ModelInvalid is 400 "User not valid: " plus the rendered error, with the bad-body code. Generic and Execute are 500 "Something went wrong: " plus the rendered error, with the internal-DB code. Every other code leaves the error nil. |
| UsersHandler.UpdateTarget | src/chocolate/service/api/handlers/users/users.handler.go:221-223 | The stored user takes the path id and the caller's email flag, and the rest of the body. |
| UsersHandler.UpdateUserWith | src/chocolate/service/api/handlers/users/users.handler.go:190-261 | Checks run in order: database, ownership (the path-id error is ignored), body, validation of the forced user, storage. A body-read error is passed on, and a mapped storage error answers with its mapping. The answer is 200 with the stored user exactly when all succeed. It is a nil error exactly when storage fails with an unmapped code. |
| UsersHandler.UpdateUser | src/chocolate/service/api/handlers/users/users.handler.go:232-243 | As written, the handler reaches the error response with a nil error exactly when storage fails with a code other than ModelInvalid, Generic or Execute. |
| UsersHandler.UpdateDbErrorFixed | src/chocolate/service/api/handlers/users/users.handler.go:232-243 | Mapped codes answer as before, and every other code is 500 internal-DB. |
| UsersHandler.UpdateUserFixed | src/chocolate/service/api/handlers/users/users.handler.go:190-261 | It never answers with a nil error, and it answers as the original wherever the original does not panic. |
| UsersHandler.UpdateMissingUserPanics | src/chocolate/service/api/handlers/users/users.handler.go:232-242 | An admin updating a well-formed uuid the database does not have (NoRows) reaches the nil error. |
| UsersHandler.UpdateMissingUserAnswered | src/chocolate/service/api/handlers/users/users.handler.go:232-242 | Corrected, the same request answers 500 internal-DB. |
| UsersHandler.CreateDbError | src/chocolate/service/api/handlers/users/users.handler.go:74-85 | AlreadyExists is 400 "User <name> already exists: " plus the rendered error, and ModelInvalid is 400 "User not valid: " plus it, both with the bad-body code. Generic and Execute are 500 "Something went wrong: " plus the rendered error, with the internal-DB code. Every other code leaves the error nil. |
| UsersHandler.InsertConnectionFailureUnmapped | src/chocolate/service/api/handlers/users/users.handler.go:76-84 | An insert failing with SQLSTATE 08006 is classified Internal, which Create leaves unmapped. |
| UsersHandler.CreateDbErrorFixed | src/chocolate/service/api/handlers/users/users.handler.go:76-83 | Mapped codes answer as before, and every other code is 500 internal-DB. |
| UsersHandler.CreateUserWith | src/chocolate/service/api/handlers/users/users.handler.go:29-99 | Checks run in order, each answering with its own error: database, body-read error, User.Valid ("invalid user", 400), password confirmation (400, its own code). A failed hash panics or is answered 500, by a switch. An insertion error answers with its mapping, or panics when the mapping gives none. A mail error answers with that error. It answers 201 if and only if every step succeeds, and the 201 carries the inserted user with its secrets cleared. |
| UsersHandler.CreateUser | src/chocolate/service/api/handlers/users/users.handler.go:29-99 | As written, once the checks pass, Create panics in two cases and only these: the hash fails (the nil password object is dereferenced), or insertion fails with a code its switch does not list. |
| UsersHandler.HashFailurePanics | src/chocolate/service/api/handlers/users/users.handler.go:422-430 | A valid sign-up whose password cannot be hashed panics instead of answering. |
| UsersHandler.CreateUserFixed | src/chocolate/service/api/handlers/users/users.handler.go:66-85 | It never panics. A failed hash is answered 500 "Couldn't generate password". It creates exactly when the original does, and it answers the same wherever the original does not panic. |
| UsersHandler.HashFailureAnswered | src/chocolate/service/api/handlers/users/users.handler.go:422-430 | Corrected, the same sign-up is answered 500 with CodeInternal and the hashing error in the message. |
| UsersHandler.ConfirmationClaims | src/chocolate/service/api/handlers/users/users.handler.go:482-497 | Confirmation claims never expire (exp 0), are issued at and not before `now`, and have role user, email flag false, subject "/users/"+id+"/confirm" and type confirm_token. |
| UsersHandler.ConfirmationTokenVerifies | src/chocolate/service/api/handlers/users/users.handler.go:482-497 | Under honest keys, a confirmation token for a non-empty uid verifies back to its claims. |
| UsersHandler.ConfirmCheck | src/chocolate/service/api/handlers/users/users.handler.go:348-359 | As written, the token is refused (403, CodeUnauth) if and only if its type is not confirm_token. A uid mismatch alone is never refused. |
| UsersHandler.ConfirmCheckFixed | src/chocolate/service/api/handlers/users/users.handler.go:348-359 | The token passes if and only if it is a confirm token for the path user. |
| UsersHandler.ConfirmDbError | src/chocolate/service/api/handlers/users/users.handler.go:363-373 | NoRows, and only NoRows, is 404 "User is not registered". Everything else is 500 internal-DB. |
| UsersHandler.ConfirmWith | src/chocolate/service/api/handlers/users/users.handler.go:308-377 | Checks run in order: database, path id (500), "t" present (400 bad-params), Verify (passed on), token check. A failed update answers 404 "User is not registered" for NoRows and 500 internal-DB otherwise (ConfirmDbError). Confirmation happens exactly when all pass and the update of {id, confirmed} succeeds. |
| UsersHandler.Confirm | src/chocolate/service/api/handlers/users/users.handler.go:348-359 | As written, a 403 after successful verification happens only for a token whose type is not confirm_token. |
| UsersHandler.ConfirmFixed | src/chocolate/service/api/handlers/users/users.handler.go:348-359 | Corrected, a confirmation implies a verified confirm token whose uid is the path user. |
| UsersHandler.ForeignConfirmationAccepted | src/chocolate/service/api/handlers/users/users.handler.go:348-363 | As written, user A's honest confirmation token confirms user B when B is in the path, and the update runs for B. |
| UsersHandler.ForeignConfirmationRefused | src/chocolate/service/api/handlers/users/users.handler.go:348-354 | Corrected, the same request is refused "Token doesnt belong to user". |
| Metrics.ValueOf | src/chocolate/service/api/metrics/metrics.go:94-95 | A value never contains ';', because it is cut at the first one. It may contain '='. |
| Metrics.PairsFailIff | src/chocolate/service/api/metrics/metrics.go:86-92 | Parsing fails if and only if some space-separated item has no '='. |
| Metrics.PairsKeys | src/chocolate/service/api/metrics/metrics.go:86-96 | A key is in the map if and only if some item carries it. |
| Metrics.PairsLastWins | src/chocolate/service/api/metrics/metrics.go:95 | A repeated key keeps the value of its last item. |
| Metrics.SplitForwardHeader | src/chocolate/service/api/metrics/metrics.go:81-99 | The loop returns the key/value map of the items, or failure at the first item without '='. |
| Metrics.PairsPrefixFails | src/chocolate/service/api/metrics/metrics.go:86-92 | Once a prefix of the items fails to parse, the whole header fails, which is why the loop may stop early. |
| Metrics.GetRequestClientIP | src/chocolate/service/api/metrics/metrics.go:41-77 | With no forwarding headers, the address is the connection's. A non-empty X-Forwarded-For gives its first comma-separated item verbatim and Forwarded is ignored. Otherwise the result is the Forwarded "for" value when parsing succeeds and the key exists, else the connection address. |
| Metrics.FirstForwardedForWins | src/chocolate/service/api/metrics/metrics.go:52-56 | "203.0.113.7, 70.41.3.18" gives "203.0.113.7", even when a Forwarded header is present. |
| Metrics.ForwardedForAddress | src/chocolate/service/api/metrics/metrics.go:58-74 | A lone "for=<address>" Forwarded header gives the address. |
| Email.FormMessage | src/chocolate/service/shared/email/email.go:47-75 | Forming fails if and only if a non-text email's template fails, with that error. A message starts with the MIME-Version line and then a Content-Type line naming text/plain for a text email and text/html otherwise. |
| Email.Assemble | src/chocolate/service/shared/email/email.go:67-73 | The assembled message begins "MIME-Version: 1.0;\nContent-Type:"+type+";\n" and ends with the body. |
| Email.HeaderLinesUnbroken | src/chocolate/service/shared/email/email.go:67-73 | When From, To, Subject and the joined Cc list have no line break, neither has any header line nor the blank line after them. |
| Email.MessageReadsBack | src/chocolate/service/shared/email/email.go:67-73 | Split into lines, a message is MIME version, content type, From, To, [Cc,] Subject, one empty line, then the lines of the body. This holds when no header value has a line break. |
| Email.CcLinePresence | src/chocolate/service/shared/email/email.go:68-73 | The Cc line is present if and only if there are copies, with the addresses joined by ", ". Subject is the last header. |

## Findings

| source | as written | input that shows it | evidently intended | confidence | as-written member | corrected member |
|---|---|---|---|---|---|---|
| src/chocolate/service/api/handlers/auth/auth.handler.go:93 | Login issues tokens with role "client" (UserTypeClient) | Any successful login; its access token then meets a table policy that lists user/business/admin only | Issue role "user" | not executed | AuthHandler.FormUserAuthResponse, AuthHandler.LoginTokenRefusedEverywhere | AuthHandler.FormUserAuthResponseFixed, AuthHandler.FixedLoginTokenAdmitted |
| src/chocolate/service/api/handlers/auth/auth.handler.go:132 | Refresh tests the type of the header token instead of the body token | Access token in the header, its paired refresh token in the body | Test the body token's type | not executed | AuthHandler.RefreshTokens, AuthHandler.HonestRefreshRefused | AuthHandler.RefreshTokensFixed, AuthHandler.HonestRefreshServed |
| src/chocolate/service/api/handlers/users/users.handler.go:348-354 | A uid mismatch is refused only when the type is also wrong | User A's confirmation token on /v1/users/B/confirm | Refuse any token whose uid is not the path user | not executed | UsersHandler.Confirm, UsersHandler.ForeignConfirmationAccepted | UsersHandler.ConfirmFixed, UsersHandler.ForeignConfirmationRefused |
| src/chocolate/service/api/handlers/users/users.handler.go:76-84 | The DB-error switch has no default, so a nil error reaches responses.Error and is dereferenced | Insert failing with SQLSTATE 08006 (classified Internal) | Answer 500 for every unlisted code | not executed | UsersHandler.CreateUser, UsersHandler.InsertConnectionFailureUnmapped | UsersHandler.CreateUserFixed, UsersHandler.CreateDbErrorFixed |
| src/chocolate/service/api/handlers/users/users.handler.go:422-430 | generatePassword sets the error but does not return. It then reads the hash and salt from the nil password object | A valid sign-up while bcrypt or the salt source fails | Return the 500 "Couldn't generate password" error without touching the password | not executed | UsersHandler.CreateUser, UsersHandler.HashFailurePanics | UsersHandler.CreateUserFixed, UsersHandler.HashFailureAnswered |
| src/chocolate/service/api/handlers/users/users.handler.go:234-241 | The DB-error switch has no default, so a nil error reaches responses.Error and is dereferenced | Admin PUT /v1/users/00000000-0000-0000-0000-000000000000 when no row has that uuid (NoRows) | Answer 500 for every unlisted code | not executed | UsersHandler.UpdateUser, UsersHandler.UpdateMissingUserPanics | UsersHandler.UpdateUserFixed, UsersHandler.UpdateMissingUserAnswered |

## Left out

- RSA key loading, PEM parsing and the RSA arithmetic (`jwt.Init`). These are file I/O and foreign crypto. Signing and decoding are the abstract `Keys`, and `HonestKeys` is the only thing assumed of them.
- Jwt.Verify: jwt-go returns a nil token for a string that does not have three dot-separated segments, and the source then reads `token.Claims` from it (jwt.go:67), which panics. The model does not represent that panic. Such a string is handed to `decode` like any other, and the answer follows what `decode` makes of it.
- The jwt-go library itself. Its standard-claims check is the `standard` parameter, and its parser is reduced to decode + error bits (`Jwt.Parse`).
- AuthMiddleware.ClaimsGate: compares the audience by plain string equality. jwt-go's VerifyAudience (not shown) also refuses an empty audience claim when the audience is required.
- AuthMiddleware.ExtractAuthFromHeader: strings.ToLower is modelled on ASCII letters only. Unicode case folding of other scripts is not modelled.
- UUID generation and `time.Now`. Ids and `now` are parameters.
- AuthUtils.GenerateAuthResponse: one `now` is used for both claim sets. The source reads the clock separately for the access and the refresh claims, which can differ by a second.
- bcrypt hashing, salt generation and comparison. These are the `hash` and `PasswordCheck` inputs.
- SQL text execution, row scanning and table creation. A query is a `run` function from the bound arguments to the returned row or a driver error.
- GetBy, GetByID, GetList and Delete (the users table queries) are represented only by their outcome, `Fetched`.
- The Get (list) and Delete users handlers. They are not part of the authorization core, and their error switch repeats the ones modelled for Create and Update.
- AuthHandler.RefreshTokens: after a body-read error the source writes an error response and carries on (the `return` is missing). The model stops at that first error, so a second response on the same request is not modelled.
- UsersHandler.Confirm: its own contract states only the refusal rule. The full chain is stated on UsersHandler.ConfirmWith, which Confirm instantiates with the as-written check.
- Sending the confirmation email, building its URL (net/url, path.Join) and rendering the confirmed page (html/template). Create takes a `send` outcome, and Confirm answers with the updated user instead of the page.
- SMTP, sender selection and template files. FormMessage takes the template's outcome as `Processed`.
- HTTP plumbing: the mux router, the request context, response writing, body decoding, the server, main and the logger. Body decoding is an input `Result`, and the database handle's presence is `haveDb`.
- The debug-only TestSomething handler in the routes file.

=== FILE: api_errors.dfy ===
/**
 The API error taxonomy: the machine-readable codes of error-codes.go, the HTTP
 statuses the core uses, and the error value every handler answers with.
 */
module ApiErrors {

  const StatusOK := 200
  const StatusCreated := 201
  const StatusBadRequest := 400
  const StatusUnauthorized := 401
  const StatusForbidden := 403
  const StatusNotFound := 404
  const StatusInternalServerError := 500
  const StatusNotImplemented := 501

  /** The api codes. `CodeNone` is the empty code the header extractor sends. */
  datatype Code =
    | CodeUnknown | CodeInternal | CodeInternalJWT | CodeInternalReadBody | CodeInternalEmail
    | CodeInternalDB | CodeUnauth | CodeUnauthMalformed | CodeUnauthExpired | CodeUnauthNotActive
    | CodeForbidden | CodeForbiddenNotConfirmed | CodeBadRequest | CodeBadReqPasswordConfirm
    | CodeBadRequestBody | CodeBadRequestParams | CodeResourceNotFound | CodeNone

  /** The string each code is sent as. */
  function Wire(c: Code): string
  {
    match c
    case CodeUnknown => "0000"
    case CodeInternal => "0001"
    case CodeInternalJWT => "0002"
    case CodeInternalReadBody => "0003"
    case CodeInternalEmail => "0004"
    case CodeInternalDB => "0010"
    case CodeUnauth => "0100"
    case CodeUnauthMalformed => "0102"
    case CodeUnauthExpired => "0103"
    case CodeUnauthNotActive => "104"
    case CodeForbidden => "0110"
    case CodeForbiddenNotConfirmed => "0111"
    case CodeBadRequest => "0200"
    case CodeBadReqPasswordConfirm => "0201"
    case CodeBadRequestBody => "0204"
    case CodeBadRequestParams => "0205"
    case CodeResourceNotFound => "0301"
    case CodeNone => ""
  }

  /**
   Distinct codes go on the wire as distinct strings, and the not-yet-valid code is the
   only non-empty one without the four-digit width.
   */
  lemma WireCodes(a: Code, b: Code)
    ensures Wire(a) == Wire(b) ==> a == b
    ensures |Wire(a)| == 4 <==> a != CodeUnauthNotActive && a != CodeNone
    ensures Wire(CodeUnauthNotActive) == "104"
  {
  }

  /** apierror.Error: HTTP status, human message and api code. */
  datatype ApiError = ApiError(status: int, message: string, code: Code)

  /** What a step of a handler produces: a value, or the error it answers with. */
  datatype Result<+T> = Ok(value: T) | Err(error: ApiError)

  /** The one error every handler answers with when the database handle is missing. */
  const NoDatabase := ApiError(StatusInternalServerError, "Couldnt reach DB", CodeInternalDB)
}

=== FILE: auth_handler.dfy ===
/**
 The token endpoints: login (POST /v1/tokens) and refresh (POST /v1/tokens/refresh).
 The user lookup and the bcrypt comparison are inputs; the clock and fresh ids come in
 through the `Issuance`.
 */
module AuthHandler {
  import opened Opt
  import opened ApiErrors
  import opened JwtClaims
  import opened Jwt
  import opened AuthUtils
  import opened AuthMiddleware
  import opened Routes
  import opened Database
  import opened UserModel
  import opened UsersDb
  import AuthModel

  /** Refresh lifetime chosen at login: 30 days with "remember me", 8 days without. */
  function LoginLifetime(remember: bool): (lifetime: int)
    ensures remember ==> lifetime == 30 * 24 * 60 * 60
    ensures !remember ==> lifetime == 8 * 24 * 60 * 60
    ensures lifetime > AccessLifetime
  {
    if remember then 30 * Day else 8 * Day
  }

  /** The answer of a token endpoint. */
  datatype TokenReply = Issued(pair: TokenPair) | Refused(error: ApiError) | NotImplemented

  /** bcrypt's comparison of a password with a stored salt and hash. */
  type PasswordCheck = (string, string, string) -> bool

  /** The error login answers with when the user lookup fails. */
  function LookupError(e: DbError, username: string): (err: ApiError)
    ensures e.code == ErrorNoRows ==>
              err == ApiError(StatusNotFound, "Username " + username + " is not registered", CodeResourceNotFound)
    ensures e.code != ErrorNoRows ==> err.status == StatusInternalServerError && err.code == CodeInternalDB
  {
    if e.code == ErrorNoRows then ApiError(StatusNotFound, "Username " + username + " is not registered", CodeResourceNotFound)
    else ApiError(StatusInternalServerError, "Something went wrong: " + Render(e), CodeInternalDB)
  }

  /**
   formUserAuthResponse as written: look the user up, compare the password, then issue a
   pair for role "client" with the remember-dependent lifetime and the user's
   confirmation state.
   */
  function FormUserAuthResponse(iss: Issuance, lookup: Fetched, check: PasswordCheck,
                                remember: bool, username: string, password: string): (r: Result<TokenPair>)
    ensures lookup.FetchFailed? ==> r == Err(LookupError(lookup.error, username))
    ensures lookup.Fetched? && !check(password, lookup.user.salt, lookup.user.password) ==>
              r == Err(ApiError(StatusUnauthorized, "Wrong credentials", CodeUnauth))
    ensures lookup.Fetched? && check(password, lookup.user.salt, lookup.user.password) ==>
              r == GenerateAuthResponse(iss, AuthModel.UserTypeClient, lookup.user.id,
                                        LoginLifetime(remember), lookup.user.confirmed)
  {
    match lookup
    case FetchFailed(e) => Err(LookupError(e, username))
    case Fetched(user) =>
      if !check(password, user.salt, user.password) then Err(ApiError(StatusUnauthorized, "Wrong credentials", CodeUnauth))
      else GenerateAuthResponse(iss, AuthModel.UserTypeClient, user.id, LoginLifetime(remember), user.confirmed)
  }

  /** The same step issuing the role the route table admits. */
  function FormUserAuthResponseFixed(iss: Issuance, lookup: Fetched, check: PasswordCheck,
                                     remember: bool, username: string, password: string): (r: Result<TokenPair>)
    ensures lookup.FetchFailed? ==> r == Err(LookupError(lookup.error, username))
    ensures lookup.Fetched? && !check(password, lookup.user.salt, lookup.user.password) ==>
              r == Err(ApiError(StatusUnauthorized, "Wrong credentials", CodeUnauth))
    ensures lookup.Fetched? && check(password, lookup.user.salt, lookup.user.password) ==>
              r == GenerateAuthResponse(iss, RoleUser, lookup.user.id, LoginLifetime(remember), lookup.user.confirmed)
  {
    match lookup
    case FetchFailed(e) => Err(LookupError(e, username))
    case Fetched(user) =>
      if !check(password, user.salt, user.password) then Err(ApiError(StatusUnauthorized, "Wrong credentials", CodeUnauth))
      else GenerateAuthResponse(iss, RoleUser, user.id, LoginLifetime(remember), user.confirmed)
  }

  /**
   GenerateTokens: database present, body read, body valid; only the "client" user type
   is served, every other valid type gets 501.
   */
  function GenerateTokens(iss: Issuance, haveDb: bool, body: Result<AuthModel.UserAuth>,
                          lookup: string -> Fetched, check: PasswordCheck): (r: TokenReply)
    ensures !haveDb ==> r == Refused(NoDatabase)
    ensures haveDb && body.Err? ==> r == Refused(body.error)
    ensures haveDb && body.Ok? && AuthModel.ValidUserAuth(body.value).Some? ==>
              r == Refused(ApiError(StatusBadRequest, AuthModel.ValidUserAuth(body.value).value, CodeBadRequestBody))
    ensures r.NotImplemented? <==>
              && haveDb && body.Ok? && AuthModel.ValidUserAuth(body.value).None?
              && body.value.userType != AuthModel.UserTypeClient
    ensures haveDb && body.Ok? && AuthModel.ValidUserAuth(body.value).None? && body.value.userType == AuthModel.UserTypeClient ==>
              var a := body.value;
              var f := FormUserAuthResponse(iss, lookup(a.username), check, a.remember, a.username, a.password);
              && (f.Ok? ==> r == Issued(f.value))
              && (f.Err? ==> r == Refused(f.error))
    ensures r.Issued? ==>
              && haveDb && body.Ok? && body.value.userType == AuthModel.UserTypeClient
              && var a := body.value;
                 Ok(r.pair) == FormUserAuthResponse(iss, lookup(a.username), check, a.remember, a.username, a.password)
  {
    if !haveDb then Refused(NoDatabase)
    else
      match body
      case Err(e) => Refused(e)
      case Ok(a) =>
        match AuthModel.ValidUserAuth(a)
        case Some(why) => Refused(ApiError(StatusBadRequest, why, CodeBadRequestBody))
        case None =>
          if a.userType == AuthModel.UserTypeClient then
            match FormUserAuthResponse(iss, lookup(a.username), check, a.remember, a.username, a.password)
            case Ok(pair) => Issued(pair)
            case Err(e) => Refused(e)
          else NotImplemented
  }

  /**
   Every login pair, as written, carries role "client", so under honest keys no route
   of the table with a policy admits its access token, whatever else the token says.
   */
  lemma LoginTokenRefusedEverywhere(iss: Issuance, lookup: Fetched, check: PasswordCheck, remember: bool,
                                    username: string, password: string, standard: Claims -> Check, i: int)
    requires HonestKeys(iss.keys)
    requires FormUserAuthResponse(iss, lookup, check, remember, username, password).Ok?
    requires 0 <= i < |Table| && Table[i].auth.Some?
    ensures var token := FormUserAuthResponse(iss, lookup, check, remember, username, password).value.accessToken;
            !Dispatch(Table[i], iss.keys, standard, iss.audience, "Bearer " + token).decision.Admit?
  {
    var user := lookup.user;
    var lifetime := LoginLifetime(remember);
    var token := FormUserAuthResponse(iss, lookup, check, remember, username, password).value.accessToken;
    var access := PairAccess(iss, AuthModel.UserTypeClient, user.id, user.confirmed);
    assert token == Create(iss.keys, access).value;
    GateNeverAdmitsClient(i, iss.keys, standard, iss.audience, "Bearer " + token);
    var h := "Bearer " + token;
    CreateThenVerify(iss.keys, standard, access);
    BearerHeaderShape(h);
    assert h[7..] == token;
  }

  /**
   With the role fixed, the access token of a confirmed user reaches GET /v1/users/{user_id}
   under honest keys, when the library's time checks pass and the token has no space.
   */
  lemma FixedLoginTokenAdmitted(iss: Issuance, lookup: Fetched, check: PasswordCheck, remember: bool,
                                username: string, password: string, standard: Claims -> Check)
    requires HonestKeys(iss.keys)
    requires FormUserAuthResponseFixed(iss, lookup, check, remember, username, password).Ok?
    requires lookup.Fetched? && lookup.user.id != "" && lookup.user.confirmed
    requires standard(PairAccess(iss, RoleUser, lookup.user.id, true)).Passed?
    requires ' ' !in FormUserAuthResponseFixed(iss, lookup, check, remember, username, password).value.accessToken
    ensures var token := FormUserAuthResponseFixed(iss, lookup, check, remember, username, password).value.accessToken;
            Dispatch(Table[4], iss.keys, standard, iss.audience, "Bearer " + token)
              == Gated(Admit(PairAccess(iss, RoleUser, lookup.user.id, true)))
  {
    var access := PairAccess(iss, RoleUser, lookup.user.id, true);
    TablePolicy();
    HonestTokenThroughGate(iss.keys, standard, iss.audience, {"user", "admin"}, true, access);
  }

  const NotRefreshToken := ApiError(StatusUnauthorized, "This is not a refresh token", CodeUnauth)
  const PairMismatch := ApiError(StatusUnauthorized, "Refesh Token doesn't match Access Token", CodeUnauth)
  const UserMismatch := ApiError(StatusUnauthorized, "Refesh Token User ID doesn't match Access Token", CodeUnauth)

  /**
   RefreshTokens as written. `header` are the claims the gate admitted; the body token
   is verified, then the binding is checked in order: the HEADER token's type, the
   header id against the body subject, the two user ids. The new pair keeps the role,
   user and confirmation of the header claims and the body token's lifetime.
   */
  function RefreshTokens(iss: Issuance, standard: Claims -> Check, header: Claims,
                         body: Result<AuthModel.Refresh>): (r: TokenReply)
    ensures body.Err? ==> r == Refused(body.error)
    ensures body.Ok? && Verify(iss.keys, standard, body.value.refreshToken).Err? ==>
              r == Refused(Verify(iss.keys, standard, body.value.refreshToken).error)
    ensures body.Ok? && Verify(iss.keys, standard, body.value.refreshToken).Ok? && header.tokenType != TokenTypeRefresh ==>
              r == Refused(NotRefreshToken)
    ensures body.Ok? && Verify(iss.keys, standard, body.value.refreshToken).Ok? && header.tokenType == TokenTypeRefresh ==>
              var rc := Verify(iss.keys, standard, body.value.refreshToken).value;
              var g := GenerateAuthResponse(iss, header.role, header.userID, rc.expiresAt - rc.issuedAt, header.emailOK);
              && (header.id != rc.subject ==> r == Refused(PairMismatch))
              && (header.id == rc.subject && header.userID != rc.userID ==> r == Refused(UserMismatch))
              && (header.id == rc.subject && header.userID == rc.userID && g.Err? ==> r == Refused(g.error))
    ensures r.Issued? <==>
              && body.Ok?
              && var v := Verify(iss.keys, standard, body.value.refreshToken);
                 && v.Ok?
                 && header.tokenType == TokenTypeRefresh
                 && header.id == v.value.subject
                 && header.userID == v.value.userID
                 && GenerateAuthResponse(iss, header.role, header.userID,
                                         v.value.expiresAt - v.value.issuedAt, header.emailOK).Ok?
    ensures r.Issued? ==>
              var rc := Verify(iss.keys, standard, body.value.refreshToken).value;
              Ok(r.pair) == GenerateAuthResponse(iss, header.role, header.userID, rc.expiresAt - rc.issuedAt, header.emailOK)
  {
    match body
    case Err(e) => Refused(e)
    case Ok(req) =>
      match Verify(iss.keys, standard, req.refreshToken)
      case Err(e) => Refused(e)
      case Ok(rc) =>
        if header.tokenType != TokenTypeRefresh then Refused(NotRefreshToken)
        else if header.id != rc.subject then Refused(PairMismatch)
        else if header.userID != rc.userID then Refused(UserMismatch)
        else
          match GenerateAuthResponse(iss, header.role, header.userID, rc.expiresAt - rc.issuedAt, header.emailOK)
          case Ok(pair) => Issued(pair)
          case Err(e) => Refused(e)
  }

  /** The refresh handler checking the type of the token it was sent in the body. */
  function RefreshTokensFixed(iss: Issuance, standard: Claims -> Check, header: Claims,
                              body: Result<AuthModel.Refresh>): (r: TokenReply)
    ensures body.Err? ==> r == Refused(body.error)
    ensures body.Ok? && Verify(iss.keys, standard, body.value.refreshToken).Err? ==>
              r == Refused(Verify(iss.keys, standard, body.value.refreshToken).error)
    ensures body.Ok? && Verify(iss.keys, standard, body.value.refreshToken).Ok? ==>
              var rc := Verify(iss.keys, standard, body.value.refreshToken).value;
              var g := GenerateAuthResponse(iss, header.role, header.userID, rc.expiresAt - rc.issuedAt, header.emailOK);
              && (rc.tokenType != TokenTypeRefresh ==> r == Refused(NotRefreshToken))
              && (rc.tokenType == TokenTypeRefresh && header.id != rc.subject ==> r == Refused(PairMismatch))
              && (rc.tokenType == TokenTypeRefresh && header.id == rc.subject && header.userID != rc.userID ==>
                    r == Refused(UserMismatch))
              && (rc.tokenType == TokenTypeRefresh && header.id == rc.subject && header.userID == rc.userID && g.Err? ==>
                    r == Refused(g.error))
    ensures r.Issued? <==>
              && body.Ok?
              && var v := Verify(iss.keys, standard, body.value.refreshToken);
                 && v.Ok?
                 && v.value.tokenType == TokenTypeRefresh
                 && header.id == v.value.subject
                 && header.userID == v.value.userID
                 && GenerateAuthResponse(iss, header.role, header.userID,
                                         v.value.expiresAt - v.value.issuedAt, header.emailOK).Ok?
    ensures r.Issued? ==>
              var rc := Verify(iss.keys, standard, body.value.refreshToken).value;
              Ok(r.pair) == GenerateAuthResponse(iss, header.role, header.userID, rc.expiresAt - rc.issuedAt, header.emailOK)
  {
    match body
    case Err(e) => Refused(e)
    case Ok(req) =>
      match Verify(iss.keys, standard, req.refreshToken)
      case Err(e) => Refused(e)
      case Ok(rc) =>
        if rc.tokenType != TokenTypeRefresh then Refused(NotRefreshToken)
        else if header.id != rc.subject then Refused(PairMismatch)
        else if header.userID != rc.userID then Refused(UserMismatch)
        else
          match GenerateAuthResponse(iss, header.role, header.userID, rc.expiresAt - rc.issuedAt, header.emailOK)
          case Ok(pair) => Issued(pair)
          case Err(e) => Refused(e)
  }

  /**
   As written, an honestly issued pair can never be refreshed the intended way: with the
   access token's claims in the header and the refresh token in the body, the handler
   answers "This is not a refresh token".
   */
  lemma HonestRefreshRefused(first: Issuance, now: Issuance, standard: Claims -> Check,
                             role: string, userID: string, lifetime: int, eok: bool)
    requires HonestKeys(first.keys) && now.keys == first.keys
    requires GenerateAuthResponse(first, role, userID, lifetime, eok).Ok?
    requires standard(PairRefresh(first, role, userID, lifetime, eok)).Passed? && role != "" && userID != ""
    ensures var pair := GenerateAuthResponse(first, role, userID, lifetime, eok).value;
            RefreshTokens(now, standard, PairAccess(first, role, userID, eok), Ok(AuthModel.Refresh(pair.refreshToken)))
              == Refused(NotRefreshToken)
  {
    CreateThenVerify(first.keys, standard, PairRefresh(first, role, userID, lifetime, eok));
    ConstantsDistinct();
  }

  /**
   Corrected, the same request is served, and the new refresh token lives exactly as
   long as the one it replaces: chained refreshes keep the login lifetime.
   */
  lemma HonestRefreshServed(first: Issuance, now: Issuance, standard: Claims -> Check,
                            role: string, userID: string, lifetime: int, eok: bool)
    requires HonestKeys(first.keys) && now.keys == first.keys
    requires GenerateAuthResponse(first, role, userID, lifetime, eok).Ok?
    requires standard(PairRefresh(first, role, userID, lifetime, eok)).Passed? && role != "" && userID != ""
    requires GenerateAuthResponse(now, role, userID, lifetime, eok).Ok?
    ensures var pair := GenerateAuthResponse(first, role, userID, lifetime, eok).value;
            var r := RefreshTokensFixed(now, standard, PairAccess(first, role, userID, eok),
                                        Ok(AuthModel.Refresh(pair.refreshToken)));
            && r.Issued?
            && var rf := now.keys.decode(r.pair.refreshToken).claims;
               && rf.Some?
               && rf.value.expiresAt - rf.value.issuedAt == lifetime
               && rf.value.userID == userID && rf.value.role == role
  {
    var rc := PairRefresh(first, role, userID, lifetime, eok);
    CreateThenVerify(first.keys, standard, rc);
    IssuedPairIsBound(now, role, userID, lifetime, eok);
  }

  /**
   Corrected, a refresh token from another pair is refused as not matching: the access
   claims of a pair issued by `a` and the refresh token of one issued by `b` with a
   different access id.
   */
  lemma ForeignRefreshRefused(a: Issuance, b: Issuance, now: Issuance, standard: Claims -> Check,
                              role: string, userID: string, lifetime: int, eok: bool)
    requires HonestKeys(b.keys) && now.keys == b.keys
    requires GenerateAuthResponse(b, role, userID, lifetime, eok).Ok?
    requires standard(PairRefresh(b, role, userID, lifetime, eok)).Passed? && role != "" && userID != ""
    requires a.accessId != b.accessId
    ensures var pair := GenerateAuthResponse(b, role, userID, lifetime, eok).value;
            RefreshTokensFixed(now, standard, PairAccess(a, role, userID, eok), Ok(AuthModel.Refresh(pair.refreshToken)))
              == Refused(PairMismatch)
  {
    CreateThenVerify(b.keys, standard, PairRefresh(b, role, userID, lifetime, eok));
  }
}

=== FILE: auth_model.dfy ===
/**
 The login and refresh request bodies and their validation.
 */
module AuthModel {
  import opened Opt

  const UserTypeClient := "client"
  const UserTypeAdmin := "admin"
  const UserTypeBusiness := "business"

  const WrongGrantType := "Wrong grant_type"
  const InvalidUserType := "Invalid user_type"
  const MissingRefreshToken := "Missing 'refresh_token'"

  /** The body of a login request. */
  datatype UserAuth = UserAuth(grantType: string, userType: string, username: string, password: string, remember: bool)

  /** The body of a refresh request. */
  datatype Refresh = Refresh(refreshToken: string)

  predicate KnownUserType(t: string)
  {
    t == UserTypeClient || t == UserTypeBusiness || t == UserTypeAdmin
  }

  /**
   UserAuth.Valid: both checks run and each overwrites the error, so when both fail the
   user-type error is the one reported. None means valid.
   */
  function ValidUserAuth(a: UserAuth): (err: Option<string>)
    ensures err.None? <==> a.grantType == "password" && KnownUserType(a.userType)
    ensures !KnownUserType(a.userType) ==> err == Some(InvalidUserType)
    ensures KnownUserType(a.userType) && a.grantType != "password" ==> err == Some(WrongGrantType)
  {
    var afterGrant := if a.grantType != "password" then Some(WrongGrantType) else None;
    if !KnownUserType(a.userType) then Some(InvalidUserType) else afterGrant
  }

  /** Both fields wrong: the user-type message wins. */
  lemma BothWrongReportsUserType(a: UserAuth)
    requires a.grantType == "client_credentials" && a.userType == "guest"
    ensures ValidUserAuth(a) == Some(InvalidUserType)
  {
  }

  /** Refresh.Valid: only the presence of the token is checked. */
  function ValidRefresh(r: Refresh): (err: Option<string>)
    ensures err.Some? <==> r.refreshToken == ""
    ensures err.Some? ==> err.value == MissingRefreshToken
  {
    if |r.refreshToken| == 0 then Some(MissingRefreshToken) else None
  }
}

=== FILE: auth_utils.dfy ===
/**
 Issuance policy for access/refresh pairs. The clock and the UUID generator are inputs:
 an `Issuance` carries the key pair, the configured audience, the current Unix second
 and the two fresh token ids a pair needs.
 */
module AuthUtils {
  import opened ApiErrors
  import opened JwtClaims
  import opened Jwt

  const Day := 24 * 60 * 60
  /** Access tokens live seven days. */
  const AccessLifetime := 7 * Day

  datatype Issuance = Issuance(keys: Keys, audience: string, now: int, accessId: string, refreshId: string)

  /** The token pair handed back at login and refresh. */
  datatype TokenPair = TokenPair(accessToken: string, refreshToken: string)

  /** GenerateAccessClaims. */
  function AccessClaims(audience: string, id: string, now: int, role: string, userID: string, eok: bool): (c: Claims)
    ensures c.issuedAt == now && c.notBefore == now && c.expiresAt == now + 604800
    ensures c.subject == "/" + role + "s/" + userID
    ensures c.tokenType == TokenTypeAccess && c.emailOK == eok && c.role == role && c.userID == userID
    ensures c.id == id && c.audience == audience && c.issuer == audience && c.authType == AuthTypeBearer
  {
    New(audience, id).(
      emailOK := eok,
      expiresAt := now + AccessLifetime,
      issuedAt := now,
      notBefore := now,
      userID := userID,
      role := role,
      subject := "/" + role + "s/" + userID,
      tokenType := TokenTypeAccess)
  }

  /** GenerateRefreshClaims: bound to its access token through the subject. */
  function RefreshClaims(audience: string, id: string, now: int, access: Claims, lifetime: int): (c: Claims)
    ensures c.issuedAt == now && c.notBefore == now && c.expiresAt == now + lifetime
    ensures c.subject == access.id && c.role == access.role && c.userID == access.userID
    ensures c.tokenType == TokenTypeRefresh && !c.emailOK
    ensures c.id == id && c.audience == audience && c.issuer == audience && c.authType == AuthTypeBearer
  {
    New(audience, id).(
      expiresAt := now + lifetime,
      issuedAt := now,
      notBefore := now,
      userID := access.userID,
      role := access.role,
      subject := access.id,
      tokenType := TokenTypeRefresh)
  }

  /** The access claims of a pair issued by `iss`. */
  function PairAccess(iss: Issuance, role: string, userID: string, eok: bool): Claims
  {
    AccessClaims(iss.audience, iss.accessId, iss.now, role, userID, eok)
  }

  /** The refresh claims of a pair issued by `iss`. */
  function PairRefresh(iss: Issuance, role: string, userID: string, lifetime: int, eok: bool): Claims
  {
    RefreshClaims(iss.audience, iss.refreshId, iss.now, PairAccess(iss, role, userID, eok), lifetime)
  }

  /**
   GenerateAuthResponse: sign the access claims, then the refresh claims bound to them.
   Either both tokens come back or the first signing error does; never half a pair.
   */
  function GenerateAuthResponse(iss: Issuance, role: string, userID: string, lifetime: int, eok: bool): (r: Result<TokenPair>)
    ensures r.Ok? <==>
              && Create(iss.keys, PairAccess(iss, role, userID, eok)).Ok?
              && Create(iss.keys, PairRefresh(iss, role, userID, lifetime, eok)).Ok?
    ensures r.Ok? ==> r.value == TokenPair(Create(iss.keys, PairAccess(iss, role, userID, eok)).value,
                                           Create(iss.keys, PairRefresh(iss, role, userID, lifetime, eok)).value)
    ensures Create(iss.keys, PairAccess(iss, role, userID, eok)).Err? ==>
              r == Err(Create(iss.keys, PairAccess(iss, role, userID, eok)).error)
    ensures r.Err? ==> r.error.status == StatusInternalServerError && r.error.code == CodeInternalJWT
  {
    var access := PairAccess(iss, role, userID, eok);
    match Create(iss.keys, access)
    case Err(e) => Err(e)
    case Ok(accessToken) =>
      var refresh := RefreshClaims(iss.audience, iss.refreshId, iss.now, access, lifetime);
      match Create(iss.keys, refresh)
      case Err(e) => Err(e)
      case Ok(refreshToken) => Ok(TokenPair(accessToken, refreshToken))
  }

  /**
   Under honest keys, the two tokens of an issued pair decode to claims where the
   refresh subject is the access id, both name the same user and role, and the refresh
   token lives exactly the requested lifetime.
   */
  lemma IssuedPairIsBound(iss: Issuance, role: string, userID: string, lifetime: int, eok: bool)
    requires HonestKeys(iss.keys)
    requires GenerateAuthResponse(iss, role, userID, lifetime, eok).Ok?
    ensures var pair := GenerateAuthResponse(iss, role, userID, lifetime, eok).value;
            var a := iss.keys.decode(pair.accessToken).claims;
            var rf := iss.keys.decode(pair.refreshToken).claims;
            && a.Some? && rf.Some?
            && rf.value.subject == a.value.id
            && rf.value.userID == a.value.userID == userID
            && rf.value.role == a.value.role == role
            && rf.value.expiresAt - rf.value.issuedAt == lifetime
            && a.value.expiresAt - a.value.issuedAt == AccessLifetime
            && a.value.tokenType == TokenTypeAccess && rf.value.tokenType == TokenTypeRefresh
  {
    CreateThenVerify(iss.keys, _ => Passed, PairAccess(iss, role, userID, eok));
    CreateThenVerify(iss.keys, _ => Passed, PairRefresh(iss, role, userID, lifetime, eok));
  }
}

=== FILE: claims.dfy ===
/**
 The claim set carried by every token (a JSON Web Token claim set, RFC 7519 section 4.1,
 extended with uid/eok/rol/ttp/ath), its construction and its self-validation.
 */
module JwtClaims {

  const TokenTypeAccess := "access_token"
  const TokenTypeRefresh := "refresh_token"
  const TokenTypeConfirm := "confirm_token"
  const AuthTypeBearer := "bearer"
  const RoleUser := "user"
  const RoleBusiness := "business"
  const RoleAdmin := "admin"

  /**
   Standard claims (aud, exp, jti, iat, iss, nbf, sub) flattened next to the custom ones.
   Times are Unix seconds; zero means "not set". Role and token type stay strings,
   as on the wire: nothing stops a token from carrying a role outside the three constants.
   */
  datatype Claims = Claims(
    audience: string,
    expiresAt: int,
    id: string,
    issuedAt: int,
    issuer: string,
    notBefore: int,
    subject: string,
    userID: string,
    emailOK: bool,
    role: string,
    tokenType: string,
    authType: string)

  /** The bits of jwt-go's ValidationError. */
  datatype Flag =
    | Malformed | Unverifiable | SignatureInvalid | AudienceInvalid | Expired
    | IssuedAtInvalid | IssuerInvalid | NotValidYet | IdInvalid | ClaimsInvalid

  /**
   The bits of a reported validation error. jwt-go hands back a ValidationError only
   when at least one bit is set (and nil otherwise), so a failure never has an empty set.
   */
  type FlagSet = s: set<Flag> | s != {} witness {Malformed}

  /** Outcome of a claims check: passed, or failed with the error bits set. */
  datatype Check = Passed | Failed(flags: FlagSet)

  /** The three token-type strings are pairwise distinct, and so are the three roles. */
  lemma ConstantsDistinct()
    ensures TokenTypeAccess != TokenTypeRefresh && TokenTypeAccess != TokenTypeConfirm
    ensures TokenTypeRefresh != TokenTypeConfirm
    ensures RoleUser != RoleBusiness && RoleUser != RoleAdmin && RoleBusiness != RoleAdmin
  {
  }

  /**
   New: a fresh claim set for the configured audience. The id comes from the UUID
   generator (an empty id when it fails, since the source drops that error).
   */
  function New(audience: string, id: string): (c: Claims)
    ensures c.audience == audience && c.issuer == audience
    ensures c.id == id && c.authType == AuthTypeBearer
    ensures c.subject == "" && c.userID == "" && c.role == "" && c.tokenType == ""
    ensures c.expiresAt == 0 && c.issuedAt == 0 && c.notBefore == 0 && !c.emailOK
  {
    Claims("", 0, "", 0, "", 0, "", "", false, "", "", "")
      .(audience := audience, issuer := audience, id := id, authType := AuthTypeBearer)
  }

  /**
   Claims.Valid: `standard` is the verdict of the library's standard-claims check
   (expiry, issued-at, not-before) at the moment of verification.
   */
  function Valid(c: Claims, standard: Check): (r: Check)
    ensures standard.Failed? ==> r == standard
    ensures standard.Passed? && c.role == "" ==> r == Failed({Malformed})
    ensures standard.Passed? && c.role != "" && c.userID == "" ==> r == Failed({Malformed})
    ensures r.Passed? <==> standard.Passed? && c.role != "" && c.userID != ""
  {
    match standard
    case Failed(_) => standard
    case Passed =>
      if c.role == "" || c.userID == "" then Failed({Malformed}) else Passed
  }
}

=== FILE: database.dfy ===
/**
 The database boundary: the classification of driver errors into the service's
 database error codes (PostgreSQL SQLSTATE classes, appendix A of the PostgreSQL
 manual), and the configuration check made before any connection is attempted.
 */
module Database {
  import opened Opt
  import opened Strs

  /** The database error codes, in declaration order (their integer values are 0 to 9). */
  datatype DbCode =
    | ErrorInternal | ErrorGeneric | ErrorCreation | ErrorTableCreation | ErrorModelInvalid
    | ErrorAlreadyExists | ErrorNoData | ErrorExecute | ErrorNoRows | ErrorMissingExtensions

  /** The integer each code is printed as. */
  function CodeValue(c: DbCode): nat
  {
    match c
    case ErrorInternal => 0
    case ErrorGeneric => 1
    case ErrorCreation => 2
    case ErrorTableCreation => 3
    case ErrorModelInvalid => 4
    case ErrorAlreadyExists => 5
    case ErrorNoData => 6
    case ErrorExecute => 7
    case ErrorNoRows => 8
    case ErrorMissingExtensions => 9
  }

  /** The errors the driver can hand back: "no rows", a server error with SQLSTATE, anything else. */
  datatype DriverError = NoRows | PqError(sqlState: string, text: string) | OtherError(text: string)

  const NoRowsText := "sql: no rows in result set"
  /** How a missing inner error prints. */
  const NilText := "<nil>"

  function DriverText(e: DriverError): string
  {
    match e
    case NoRows => NoRowsText
    case PqError(_, t) => t
    case OtherError(t) => t
  }

  /** database.Error; the inner error is kept as its text. */
  datatype DbError = DbError(code: DbCode, message: string, query: string, table: string, inner: string)

  /** Error(): the one-line rendering handlers embed in their messages. */
  function Render(e: DbError): string
  {
    "Code: " + NatToString(CodeValue(e.code)) + ", Message: " + e.message + ", Table: " + e.table
      + ", Query: " + e.query + ", Inner error: " + e.inner
  }

  predicate HasPrefix(s: string, p: string)
  {
    |p| <= |s| && s[..|p|] == p
  }

  const ConnectionClass := "08"
  const InternalClass := "XX"

  /** The connection and internal SQLSTATE classes. */
  predicate ServerSideClass(state: string)
  {
    HasPrefix(state, ConnectionClass) || HasPrefix(state, InternalClass)
  }

  /** The two exact codes lie outside the connection and internal classes. */
  lemma ExactCodesNotServerSide()
    ensures !ServerSideClass("23505") && !ServerSideClass("02000")
  {
    assert "23505"[..2][0] == '2';
    assert "02000"[..2][1] == '2';
  }

  /**
   FormError: the SQLSTATE class is examined before the exact codes, so a connection or
   internal failure is never reported as a constraint violation or "no data".
   */
  function FormError(err: DriverError, query: string, table: string): (e: DbError)
    ensures e.query == query && e.table == table && e.inner == DriverText(err)
    ensures e.code == ErrorNoRows <==> err.NoRows?
    ensures e.code == ErrorInternal <==> err.PqError? && ServerSideClass(err.sqlState)
    ensures e.code == ErrorAlreadyExists <==> err.PqError? && err.sqlState == "23505"
    ensures e.code == ErrorNoData <==> err.PqError? && err.sqlState == "02000"
    ensures e.code == ErrorExecute <==>
              && err.PqError?
              && !ServerSideClass(err.sqlState)
              && err.sqlState != "23505" && err.sqlState != "02000"
    ensures e.code == ErrorGeneric <==> err.OtherError?
    ensures e.code == ErrorGeneric ==> e.message == ""
  {
    match err
    case NoRows => DbError(ErrorNoRows, "No rows found", query, table, NoRowsText)
    case PqError(state, text) =>
      ExactCodesNotServerSide();
      if HasPrefix(state, ConnectionClass) then DbError(ErrorInternal, "Connection Error", query, table, text)
      else if HasPrefix(state, InternalClass) then DbError(ErrorInternal, "Internal DB Error", query, table, text)
      else if state == "23505" then DbError(ErrorAlreadyExists, "Already Exists, unique constrain violation", query, table, text)
      else if state == "02000" then DbError(ErrorNoData, "No Data", query, table, text)
      else DbError(ErrorExecute, "Error executing query", query, table, text)
    case OtherError(text) => DbError(ErrorGeneric, "", query, table, text)
  }

  /** The classifier only ever produces five of the ten codes. */
  lemma FormErrorRange(err: DriverError, query: string, table: string)
    ensures FormError(err, query, table).code in
              {ErrorNoRows, ErrorInternal, ErrorAlreadyExists, ErrorNoData, ErrorExecute, ErrorGeneric}
  {
  }

  /** A connection-class SQLSTATE is internal even though it is neither exact code. */
  lemma ConnectionFailureScenario()
    ensures FormError(PqError("08006", "pq: connection failure"), "q", "users").code == ErrorInternal
    ensures FormError(PqError("23505", "pq: duplicate key"), "q", "users").code == ErrorAlreadyExists
    ensures FormError(PqError("42P01", "pq: undefined table"), "q", "users").code == ErrorExecute
  {
    assert "08006"[..2] == "08";
    assert "42P01"[..2][0] == '4';
  }

  /** config.SQLConfig. */
  datatype SqlConfig = SqlConfig(host: string, port: string, user: string, password: string, database: string)

  predicate Complete(cfg: SqlConfig)
  {
    cfg.host != "" && cfg.port != "" && cfg.user != "" && cfg.password != "" && cfg.database != ""
  }

  const IncompleteConfig := "All db configuration fields must be set"

  /** The data source name handed to the driver. */
  function ConnString(cfg: SqlConfig): string
  {
    "user=" + cfg.user + " password=" + cfg.password + " dbname=" + cfg.database
      + " host=" + cfg.host + " port=" + cfg.port + " sslmode=disable"
  }

  /** A live handle, or the reason there is none. */
  datatype Connect = Connected(cfg: SqlConfig) | NotConnected(reason: string)

  /**
   New: `open` and `ping` are the driver's answers (None for success) to the given
   connection string; `attempted` is the connection string handed to the driver, if any.
   */
  function NewDb(cfg: SqlConfig, open: string -> Option<string>, ping: string -> Option<string>)
    : (r: (Connect, Option<string>))
    ensures !Complete(cfg) ==> r.0 == NotConnected(IncompleteConfig) && r.1 == None
    ensures Complete(cfg) ==> r.1 == Some(ConnString(cfg))
    ensures r.0.Connected? <==> Complete(cfg) && open(ConnString(cfg)).None? && ping(ConnString(cfg)).None?
    ensures r.0.Connected? ==> r.0.cfg == cfg
  {
    if !Complete(cfg) then (NotConnected(IncompleteConfig), None)
    else
      var dsn := ConnString(cfg);
      match open(dsn)
      case Some(e) => (NotConnected("Couldn't open connection to postgre database: " + e), Some(dsn))
      case None =>
        match ping(dsn)
        case Some(e) => (NotConnected("Couldn't ping postgres database: " + e), Some(dsn))
        case None => (Connected(cfg), Some(dsn))
  }
}

=== FILE: email.dfy ===
/**
 The outgoing mail message, laid out as an RFC 822 style header block, one blank line,
 then the body. The template that renders an HTML body is represented by its outcome.
 */
module Email {
  import opened Strs

  const TextEmail := "text"
  const HtmlEmail := "html"
  const TextPlain := "text/plain; charset=\"UTF-8\""
  const TextHtml := "text/html; charset=\"UTF-8\""

  /** What the email's template produced when processed. */
  datatype Processed = Rendered(text: string) | RenderFailed(reason: string)

  datatype Email = Email(kind: string, subject: string, body: string, from: string, to: string,
                         cc: seq<string>, template: Processed)

  /** The formed message, or the template error (the message is then empty). */
  datatype Formed = Formed(msg: string) | FormFailed(reason: string)

  function ContentType(e: Email): string
  {
    if e.kind == TextEmail then TextPlain else TextHtml
  }

  const MimeVersionLine := "MIME-Version: 1.0;"

  function ContentTypeLine(e: Email): string
  {
    "Content-Type:" + ContentType(e) + ";"
  }

  /**
   The header lines of the message, without their line breaks: MIME version, content
   type, From, To, a Cc line only when there are copies, Subject.
   */
  function HeaderLines(e: Email): seq<string>
  {
    [MimeVersionLine, ContentTypeLine(e), "From: " + e.from, "To: " + e.to]
      + (if |e.cc| > 0 then ["Cc: " + Join(e.cc, ", ")] else [])
      + ["Subject: " + e.subject]
  }

  /** Lines each followed by a line break: the layout of FormMessage's format strings. */
  function Lines(ls: seq<string>): string
  {
    if |ls| == 0 then "" else ls[0] + "\n" + Lines(ls[1..])
  }

  /**
   FormMessage: a text email carries its own body as text/plain; any other kind carries
   the processed template as text/html, and a template error yields no message. The
   header lines and one blank line precede the body.
   */
  function FormMessage(e: Email): (r: Formed)
    ensures r.FormFailed? <==> e.kind != TextEmail && e.template.RenderFailed?
    ensures r.FormFailed? ==> r.reason == e.template.reason
    ensures r.Formed? ==>
              var head := MimeVersionLine + "\n" + "Content-Type:" + (if e.kind == TextEmail then TextPlain else TextHtml) + ";\n";
              |head| <= |r.msg| && r.msg[..|head|] == head
  {
    if e.kind == TextEmail then Formed(Assemble(e, e.body))
    else
      match e.template
      case RenderFailed(why) => FormFailed(why)
      case Rendered(body) => Formed(Assemble(e, body))
  }

  function Assemble(e: Email, body: string): (msg: string)
    ensures var head := MimeVersionLine + "\n" + ContentTypeLine(e) + "\n";
            |head| <= |msg| && msg[..|head|] == head
    ensures |body| <= |msg| && msg[|msg| - |body|..] == body
  {
    var ls := HeaderLines(e) + [""];
    var rest := ls[2..];
    assert ls == [MimeVersionLine] + ([ContentTypeLine(e)] + rest);
    LinesCons(ContentTypeLine(e), rest);
    LinesCons(MimeVersionLine, [ContentTypeLine(e)] + rest);
    var head := MimeVersionLine + "\n" + ContentTypeLine(e) + "\n";
    assert Lines(ls) + body == head + (Lines(rest) + body);
    Lines(ls) + body
  }

  lemma LinesCons(x: string, rest: seq<string>)
    ensures Lines([x] + rest) == x + "\n" + Lines(rest)
  {
    assert ([x] + rest)[1..] == rest;
  }

  /** Splitting line-broken lines followed by more text gives the lines back first. */
  lemma {:induction false} LinesSplit(ls: seq<string>, rest: string)
    requires forall i :: 0 <= i < |ls| ==> '\n' !in ls[i]
    ensures Split(Lines(ls) + rest, '\n') == ls + Split(rest, '\n')
    decreases |ls|
  {
    if |ls| > 0 {
      LinesSplit(ls[1..], rest);
      assert Lines(ls) + rest == ls[0] + ['\n'] + (Lines(ls[1..]) + rest);
      SplitAtFirst(ls[0], '\n', Lines(ls[1..]) + rest);
      assert ls + Split(rest, '\n') == [ls[0]] + (ls[1..] + Split(rest, '\n'));
    } else {
      assert Lines(ls) + rest == rest;
      assert ls + Split(rest, '\n') == Split(rest, '\n');
    }
  }

  /** No header line, nor the blank line after them, holds a line break when no header value does. */
  lemma HeaderLinesUnbroken(e: Email)
    requires '\n' !in e.from && '\n' !in e.to && '\n' !in e.subject && '\n' !in Join(e.cc, ", ")
    ensures forall i :: 0 <= i < |HeaderLines(e) + [""]| ==> '\n' !in (HeaderLines(e) + [""])[i]
  {
    var ls := HeaderLines(e) + [""];
    assert '\n' !in MimeVersionLine;
    assert '\n' !in ContentTypeLine(e) by {
      assert '\n' !in TextPlain && '\n' !in TextHtml;
    }
    forall i | 0 <= i < |ls|
      ensures '\n' !in ls[i]
    {
    }
  }

  /**
   The message reads back: split into lines, it is the header lines, one empty line,
   then the lines of the body, provided no header value contains a line break.
   */
  lemma MessageReadsBack(e: Email)
    requires FormMessage(e).Formed?
    requires '\n' !in e.from && '\n' !in e.to && '\n' !in e.subject && '\n' !in Join(e.cc, ", ")
    ensures var body := if e.kind == TextEmail then e.body else e.template.text;
            Split(FormMessage(e).msg, '\n') == HeaderLines(e) + [""] + Split(body, '\n')
  {
    var ls := HeaderLines(e) + [""];
    HeaderLinesUnbroken(e);
    var body := if e.kind == TextEmail then e.body else e.template.text;
    assert FormMessage(e).msg == Lines(ls) + body;
    LinesSplit(ls, body);
  }

  /** The Cc line appears exactly when there are copies. */
  lemma CcLinePresence(e: Email)
    ensures |e.cc| > 0 <==> |HeaderLines(e)| == 6
    ensures |e.cc| > 0 ==> HeaderLines(e)[4] == "Cc: " + Join(e.cc, ", ")
    ensures HeaderLines(e)[|HeaderLines(e)| - 1] == "Subject: " + e.subject
  {
  }
}

=== FILE: jwt.dfy ===
/**
 The signing boundary. The RSA arithmetic and the jwt-go library are abstract: a token
 string decodes to a record of its header algorithm, whether its signature checks
 against the public key, and its claims (absent when it does not decode). Signing is
 an abstract function of algorithm and claims. The only thing assumed of the pair is
 `HonestKeys`: what the private key signs, the public key decodes back unchanged.
 */
module Jwt {
  import opened Opt
  import opened ApiErrors
  import opened JwtClaims

  /** Signing algorithms a token header can name (RFC 7518 section 3.1). */
  datatype Alg =
    | RS256 | RS384 | RS512 | PS256 | PS384 | PS512
    | HS256 | HS384 | HS512 | ES256 | ES384 | ES512 | NoneAlg

  /** The algorithms jwt-go implements with its RSA PKCS#1 v1.5 signing method type. */
  predicate IsRSA(a: Alg)
  {
    a == RS256 || a == RS384 || a == RS512
  }

  datatype Decoded = Decoded(alg: Alg, signatureOk: bool, claims: Option<Claims>)

  datatype SignOutcome = Signed(token: string) | SignFailed(reason: string)

  /** The loaded key pair, as the two operations it supports. */
  datatype Keys = Keys(sign: (Alg, Claims) -> SignOutcome, decode: string -> Decoded)

  /** The stated assumption about the key pair: verification inverts signing. */
  ghost predicate HonestKeys(keys: Keys)
  {
    forall a: Alg, c: Claims :: keys.sign(a, c).Signed? ==>
      keys.decode(keys.sign(a, c).token) == Decoded(a, true, Some(c))
  }

  /** What jwt-go's parser reports: the token's validity flag, its claims and error bits. */
  datatype Parsed = Parsed(valid: bool, claims: Option<Claims>, flags: set<Flag>)

  function FlagsOf(check: Check): set<Flag>
  {
    match check
    case Passed => {}
    case Failed(f) => f
  }

  /**
   ParseWithClaims with the source's key callback: an undecodable token is malformed;
   a non-RSA algorithm makes the callback refuse (unverifiable); otherwise the claims'
   own Valid and the signature check contribute their error bits.
   */
  function Parse(keys: Keys, standard: Claims -> Check, token: string): (p: Parsed)
    ensures p.valid <==> p.claims.Some? && p.flags == {}
    ensures p.valid ==> IsRSA(keys.decode(token).alg) && keys.decode(token).signatureOk
  {
    var d := keys.decode(token);
    match d.claims
    case None => Parsed(false, None, {Malformed})
    case Some(c) =>
      if !IsRSA(d.alg) then Parsed(false, Some(c), {Unverifiable})
      else
        var flags := FlagsOf(Valid(c, standard(c))) + (if d.signatureOk then {} else {SignatureInvalid});
        Parsed(flags == {}, Some(c), flags)
  }

  /** The error Verify answers with for a refused token, by fixed precedence. */
  function VerifyError(flags: set<Flag>): (e: ApiError)
    ensures e.status == StatusUnauthorized
    ensures Malformed in flags ==> e.code == CodeUnauthMalformed
    ensures Malformed !in flags && Expired in flags ==> e.code == CodeUnauthExpired
    ensures Malformed !in flags && Expired !in flags && NotValidYet in flags ==> e.code == CodeUnauthNotActive
    ensures Malformed !in flags && Expired !in flags && NotValidYet !in flags ==> e.code == CodeUnauth
  {
    if Malformed in flags then ApiError(StatusUnauthorized, "Malformed JWT", CodeUnauthMalformed)
    else if Expired in flags then ApiError(StatusUnauthorized, "Expired JWT", CodeUnauthExpired)
    else if NotValidYet in flags then ApiError(StatusUnauthorized, "JWT Not Valid Yet", CodeUnauthNotActive)
    else ApiError(StatusUnauthorized, "Unauthorized", CodeUnauth)
  }

  /** When a decoded token is accepted: RSA family, good signature, claims that pass Valid. */
  predicate Accepted(keys: Keys, standard: Claims -> Check, token: string)
  {
    var d := keys.decode(token);
    && d.claims.Some?
    && IsRSA(d.alg)
    && d.signatureOk
    && FlagsOf(Valid(d.claims.value, standard(d.claims.value))) == {}
  }

  /** Verify: the claims of a valid token, or a 401 classifying why it is not. */
  function Verify(keys: Keys, standard: Claims -> Check, token: string): (r: Result<Claims>)
    ensures !IsRSA(keys.decode(token).alg) ==> r.Err?
    ensures r.Ok? <==> Accepted(keys, standard, token)
    ensures r.Ok? ==> Some(r.value) == keys.decode(token).claims
    ensures r.Ok? ==> r.value.role != "" && r.value.userID != ""
    ensures r.Err? ==> r.error.status == StatusUnauthorized
    ensures r.Err? ==> r.error == VerifyError(Parse(keys, standard, token).flags)
  {
    var p := Parse(keys, standard, token);
    if p.claims.Some? && p.valid then Ok(p.claims.value) else Err(VerifyError(p.flags))
  }

  /** Create: sign with RS256; a signing failure is a 500 with the internal-JWT code. */
  function Create(keys: Keys, c: Claims): (r: Result<string>)
    ensures r.Ok? <==> keys.sign(RS256, c).Signed?
    ensures r.Ok? ==> r.value == keys.sign(RS256, c).token
    ensures r.Err? ==> r.error.status == StatusInternalServerError && r.error.code == CodeInternalJWT
  {
    match keys.sign(RS256, c)
    case Signed(t) => Ok(t)
    case SignFailed(why) => Err(ApiError(StatusInternalServerError, "Coulnd't Generate JWT: " + why, CodeInternalJWT))
  }

  /**
   Round trip: under honest keys a token made by Create verifies back to exactly the
   claims it was made from, precisely when those claims pass Valid at verification time.
   */
  lemma CreateThenVerify(keys: Keys, standard: Claims -> Check, c: Claims)
    requires HonestKeys(keys)
    requires Create(keys, c).Ok?
    ensures keys.decode(Create(keys, c).value) == Decoded(RS256, true, Some(c))
    ensures Verify(keys, standard, Create(keys, c).value).Ok?
        <==> standard(c).Passed? && c.role != "" && c.userID != ""
    ensures Verify(keys, standard, Create(keys, c).value).Ok? ==>
        Verify(keys, standard, Create(keys, c).value).value == c
  {
    assert keys.sign(RS256, c).Signed?;
  }
}

=== FILE: metrics.dfy ===
/**
 The client address logged for each request: the first X-Forwarded-For entry, else the
 "for" parameter of the Forwarded header (RFC 7239 section 4), else the connection's
 address. Header values are passed in; an absent header is the empty string.
 */
module Metrics {
  import opened Opt
  import opened Strs

  /** The key of a "key=value" item (text before the first '='). */
  function KeyOf(item: string): string
    requires '=' in item
  {
    Cut(item, '=').value.0
  }

  /** The value of a "key=value" item, up to its first ';' (it may contain '='). */
  function ValueOf(item: string): (v: string)
    requires '=' in item
    ensures ';' !in v
  {
    Before(Cut(item, '=').value.1, ';')
  }

  /** The map built from the items in order, later keys overwriting earlier ones; None if one lacks '='. */
  function Pairs(items: seq<string>): Option<map<string, string>>
  {
    if |items| == 0 then Some(map[])
    else
      var last := items[|items| - 1];
      match Pairs(items[..|items| - 1])
      case None => None
      case Some(m) => if '=' in last then Some(m[KeyOf(last) := ValueOf(last)]) else None
  }

  /** Parsing fails exactly when some item has no '='. */
  lemma {:induction false} PairsFailIff(items: seq<string>)
    ensures Pairs(items).None? <==> exists i :: 0 <= i < |items| && '=' !in items[i]
    decreases |items|
  {
    if |items| > 0 {
      var init := items[..|items| - 1];
      PairsFailIff(init);
      if exists i :: 0 <= i < |init| && '=' !in init[i] {
        var i :| 0 <= i < |init| && '=' !in init[i];
        assert items[i] == init[i];
      }
      if exists i :: 0 <= i < |items| && '=' !in items[i] {
        var i :| 0 <= i < |items| && '=' !in items[i];
        if i < |init| {
          assert init[i] == items[i];
        }
      }
    }
  }

  /** Only keys that some item carries are present. */
  lemma {:induction false} PairsKeys(items: seq<string>, k: string)
    requires Pairs(items).Some?
    ensures k in Pairs(items).value <==> exists i :: 0 <= i < |items| && '=' in items[i] && KeyOf(items[i]) == k
    decreases |items|
  {
    if |items| > 0 {
      var n := |items| - 1;
      var init := items[..n];
      PairsKeys(init, k);
      if exists i :: 0 <= i < |items| && '=' in items[i] && KeyOf(items[i]) == k {
        var i :| 0 <= i < |items| && '=' in items[i] && KeyOf(items[i]) == k;
        if i < n {
          assert init[i] == items[i];
        }
      }
      if exists i :: 0 <= i < |init| && '=' in init[i] && KeyOf(init[i]) == k {
        var i :| 0 <= i < |init| && '=' in init[i] && KeyOf(init[i]) == k;
        assert items[i] == init[i];
      }
    }
  }

  /** A repeated key keeps the value of the last item carrying it. */
  lemma {:induction false} PairsLastWins(items: seq<string>, j: int)
    requires Pairs(items).Some?
    requires 0 <= j < |items| && '=' in items[j]
    requires forall l :: j < l < |items| ==> '=' in items[l] && KeyOf(items[l]) != KeyOf(items[j])
    ensures KeyOf(items[j]) in Pairs(items).value
    ensures Pairs(items).value[KeyOf(items[j])] == ValueOf(items[j])
    decreases |items|
  {
    var n := |items| - 1;
    if j < n {
      var init := items[..n];
      assert init[j] == items[j];
      forall l | j < l < |init|
        ensures '=' in init[l] && KeyOf(init[l]) != KeyOf(init[j])
      {
        assert init[l] == items[l];
      }
      PairsLastWins(init, j);
    }
  }

  /**
   splitForwardHeader: split on single spaces, cut each item at its first '=', keep the
   value up to its first ';'. Fails on the first item without '='.
   */
  method SplitForwardHeader(header: string) returns (fwd: Option<map<string, string>>)
    ensures fwd == Pairs(Split(header, ' '))
  {
    var items := Split(header, ' ');
    var m: map<string, string> := map[];
    var i := 0;
    while i < |items|
      invariant 0 <= i <= |items|
      invariant Pairs(items[..i]) == Some(m)
    {
      assert items[..i + 1][..i] == items[..i];
      match Cut(items[i], '=')
      case None =>
        assert Pairs(items[..i + 1]) == None;
        PairsPrefixFails(items, i + 1);
        return None;
      case Some(kv) =>
        m := m[kv.0 := Before(kv.1, ';')];
      i := i + 1;
    }
    assert items[..i] == items;
    return Some(m);
  }

  /** Once a prefix fails to parse, the whole list does. */
  lemma {:induction false} PairsPrefixFails(items: seq<string>, n: nat)
    requires n <= |items| && Pairs(items[..n]).None?
    ensures Pairs(items).None?
  {
    PairsFailIff(items[..n]);
    var i :| 0 <= i < n && '=' !in items[..n][i];
    PairsFailIff(items);
  }

  /** getRequestClientIP. */
  function GetRequestClientIP(connIP: string, xForwardedFor: string, forwarded: string): (ip: string)
    ensures xForwardedFor == "" && forwarded == "" ==> ip == connIP
    ensures xForwardedFor != "" ==>
              && ',' !in ip && |ip| <= |xForwardedFor| && ip == xForwardedFor[..|ip|]
              && (|ip| < |xForwardedFor| ==> xForwardedFor[|ip|] == ',')
    ensures xForwardedFor == "" && forwarded != "" ==>
              var p := Pairs(Split(forwarded, ' '));
              ip == (if p.Some? && "for" in p.value then p.value["for"] else connIP)
  {
    if |xForwardedFor| > 0 then Before(xForwardedFor, ',')
    else if |forwarded| > 0 then
      match Pairs(Split(forwarded, ' '))
      case None => connIP
      case Some(m) => if "for" in m then m["for"] else connIP
    else connIP
  }

  /** The X-Forwarded-For entry is taken as is, with its surrounding spaces, and Forwarded is ignored. */
  lemma FirstForwardedForWins()
    ensures GetRequestClientIP("10.0.0.1", "203.0.113.7, 70.41.3.18", "for=192.0.2.60") == "203.0.113.7"
  {
    var x := "203.0.113.7, 70.41.3.18";
    assert x == "203.0.113.7" + [','] + " 70.41.3.18";
    SplitAtFirst("203.0.113.7", ',', " 70.41.3.18");
  }

  /** A lone "for=<address>" Forwarded header yields the address. */
  lemma ForwardedForAddress(connIP: string, address: string)
    requires ' ' !in address && ';' !in address
    ensures GetRequestClientIP(connIP, "", "for=" + address) == address
  {
    var item := "for=" + address;
    assert item == "for" + ['='] + address;
    assert ' ' !in item by {
      forall i | 0 <= i < |item|
        ensures item[i] != ' '
      {
        if i >= 4 {
          assert item[i] == address[i - 4];
        }
      }
    }
    SplitWithoutSeparator(item, ' ');
    assert '=' !in "for";
    CutAtFirst("for", '=', address);
    assert KeyOf(item) == "for";
    SplitWithoutSeparator(address, ';');
    assert ValueOf(item) == address;
    assert [item][..0] == [];
    assert Pairs([item]) == Some(map["for" := address]);
  }
}

=== FILE: middleware.dfy ===
/**
 The authorization gate run in front of every protected route: take the bearer
 credential from the Authorization header (RFC 6750 section 2.1), verify it, then check
 audience, role and email confirmation, stopping at the first refusal.
 */
module AuthMiddleware {
  import opened Opt
  import opened Strs
  import opened ApiErrors
  import opened JwtClaims
  import opened Jwt

  const MissingHeader := ApiError(StatusUnauthorized, "Missing Authorization Header", CodeNone)
  const MalformedHeader := ApiError(StatusUnauthorized, "Malformed Authorization Header", CodeNone)
  const WrongHeaderType := ApiError(StatusUnauthorized, "Wrong type of Authorization Header", CodeNone)
  const WrongAudience := ApiError(StatusUnauthorized, "Wrong Audience in JWT", CodeUnauth)
  const RoleRefused := ApiError(StatusForbidden, "User not allowed to reach this endpoint", CodeForbidden)
  const EmailNotConfirmed := ApiError(StatusForbidden, "Email not confirmed", CodeForbiddenNotConfirmed)

  /**
   extractAuthFromHeader: the header is split on single spaces; the first word must be
   "bearer" in any letter case and must be followed by exactly one more word.
   */
  function ExtractAuthFromHeader(header: string): (r: Result<string>)
    ensures header == "" ==> r == Err(MissingHeader)
    ensures header != "" && Lower(Before(header, ' ')) != "bearer" ==> r == Err(WrongHeaderType)
    ensures header != "" && Lower(Before(header, ' ')) == "bearer" ==> r != Err(WrongHeaderType)
    ensures header != "" && Lower(Before(header, ' ')) == "bearer" && r.Err? ==> r == Err(MalformedHeader)
    ensures r.Err? ==> r.error.status == StatusUnauthorized
  {
    if |header| == 0 then Err(MissingHeader)
    else
      var items := Split(header, ' ');
      if Lower(items[0]) == "bearer" then
        if |items| != 2 then Err(MalformedHeader) else Ok(items[1])
      else Err(WrongHeaderType)
  }

  /** "bearer" written in any case contains no space. */
  lemma BearerWordHasNoSpace(w: string)
    requires Lower(w) == "bearer"
    ensures |w| == 6 && ' ' !in w
  {
    assert |Lower(w)| == |w|;
    forall i | 0 <= i < |w|
      ensures w[i] != ' '
    {
      assert Lower(w)[i] == LowerChar(w[i]) == "bearer"[i];
    }
  }

  /**
   The exact shape of an accepted header: six letters spelling "bearer" in any case,
   one space, and a token with no space in it; the token is everything after the space.
   */
  lemma {:induction false} BearerHeaderShape(header: string)
    ensures ExtractAuthFromHeader(header).Ok? <==>
              && |header| >= 7
              && Lower(header[..6]) == "bearer"
              && header[6] == ' '
              && ' ' !in header[7..]
    ensures ExtractAuthFromHeader(header).Ok? ==> ExtractAuthFromHeader(header).value == header[7..]
  {
    if ExtractAuthFromHeader(header).Ok? {
      var items := Split(header, ' ');
      assert |items| == 2 && Lower(items[0]) == "bearer";
      BearerWordHasNoSpace(items[0]);
      SplitJoin(header, ' ');
      assert header == items[0] + " " + items[1];
      assert header[..6] == items[0];
      assert header[7..] == items[1];
    }
    if |header| >= 7 && Lower(header[..6]) == "bearer" && header[6] == ' ' && ' ' !in header[7..] {
      BearerWordHasNoSpace(header[..6]);
      assert header == header[..6] + [' '] + header[7..];
      SplitAtFirst(header[..6], ' ', header[7..]);
      SplitWithoutSeparator(header[7..], ' ');
      assert Split(header, ' ') == [header[..6], header[7..]];
    }
  }

  /** A header with a foreign scheme is refused as the wrong type. */
  lemma ForeignSchemeScenario()
    ensures ExtractAuthFromHeader("Token abc") == Err(WrongHeaderType)
  {
    assert "Token abc" == "Token" + [' '] + "abc";
    SplitAtFirst("Token", ' ', "abc");
    assert |Lower("Token")| == 5;
  }

  /** The capitalised scheme name folds to the lower-case one. */
  lemma CapitalisedBearer()
    ensures Lower("Bearer") == "bearer"
  {
    var l := Lower("Bearer");
    assert l[0] == 'b' && l[1] == 'e' && l[2] == 'a' && l[3] == 'r' && l[4] == 'e' && l[5] == 'r';
  }

  /** A bearer scheme with no token after it is refused as malformed. */
  lemma MissingTokenScenario()
    ensures ExtractAuthFromHeader("Bearer") == Err(MalformedHeader)
  {
    SplitWithoutSeparator("Bearer", ' ');
    CapitalisedBearer();
  }

  /** The post-verification checks, in source order; None admits. */
  function ClaimsGate(c: Claims, audience: string, roles: set<string>, checkEmail: bool): (r: Option<ApiError>)
    ensures c.audience != audience ==> r == Some(WrongAudience)
    ensures c.audience == audience && c.role !in roles ==> r == Some(RoleRefused)
    ensures (c.audience == audience && c.role in roles && c.role != RoleAdmin && checkEmail && !c.emailOK)
              ==> r == Some(EmailNotConfirmed)
    ensures r.None? <==> c.audience == audience && c.role in roles && (c.role == RoleAdmin || !checkEmail || c.emailOK)
  {
    if c.audience != audience then Some(WrongAudience)
    else if c.role !in roles then Some(RoleRefused)
    else if c.role != RoleAdmin && checkEmail && !c.emailOK then Some(EmailNotConfirmed)
    else None
  }

  datatype Decision = Admit(claims: Claims) | Refuse(error: ApiError)

  /**
   Validate: the whole gate. On admission the downstream handler sees exactly the
   verified claims.
   */
  function Validate(keys: Keys, standard: Claims -> Check, audience: string, roles: set<string>,
                    checkEmail: bool, header: string): (d: Decision)
    ensures ExtractAuthFromHeader(header).Err? ==> d == Refuse(ExtractAuthFromHeader(header).error)
    ensures (ExtractAuthFromHeader(header).Ok? && Verify(keys, standard, ExtractAuthFromHeader(header).value).Err?)
              ==> d == Refuse(Verify(keys, standard, ExtractAuthFromHeader(header).value).error)
    ensures (&& ExtractAuthFromHeader(header).Ok? && Verify(keys, standard, ExtractAuthFromHeader(header).value).Ok?
             && ClaimsGate(Verify(keys, standard, ExtractAuthFromHeader(header).value).value,
                           audience, roles, checkEmail).Some?)
              ==> d == Refuse(ClaimsGate(Verify(keys, standard, ExtractAuthFromHeader(header).value).value,
                                         audience, roles, checkEmail).value)
    ensures d.Admit? <==>
              && ExtractAuthFromHeader(header).Ok?
              && Verify(keys, standard, ExtractAuthFromHeader(header).value).Ok?
              && ClaimsGate(Verify(keys, standard, ExtractAuthFromHeader(header).value).value,
                            audience, roles, checkEmail).None?
    ensures d.Admit? ==> d.claims == Verify(keys, standard, ExtractAuthFromHeader(header).value).value
  {
    match ExtractAuthFromHeader(header)
    case Err(e) => Refuse(e)
    case Ok(token) =>
      match Verify(keys, standard, token)
      case Err(e) => Refuse(e)
      case Ok(c) =>
        match ClaimsGate(c, audience, roles, checkEmail)
        case Some(e) => Refuse(e)
        case None => Admit(c)
  }

  /** The admin role passes the email check where the same claims as a user do not. */
  lemma AdminSkipsEmailCheck(c: Claims, audience: string)
    requires c.audience == audience && !c.emailOK
    ensures ClaimsGate(c.(role := RoleAdmin), audience, {RoleUser, RoleAdmin}, true).None?
    ensures ClaimsGate(c.(role := RoleUser), audience, {RoleUser, RoleAdmin}, true) == Some(EmailNotConfirmed)
  {
  }
}

=== FILE: routes.dfy ===
/**
 The route table and its per-route authorization policy, and the router's rule that a
 route runs behind the gate exactly when it declares a policy.
 */
module Routes {
  import opened Opt
  import opened ApiErrors
  import opened JwtClaims
  import opened Jwt
  import opened AuthMiddleware

  /** Who may call a route, and whether a confirmed email is required. */
  datatype RouteAuth = RouteAuth(roles: set<string>, checkEmail: bool)

  /** The set of listed roles (the source builds it as a map with empty values). */
  function RoleSet(roles: seq<string>): (s: set<string>)
    ensures forall r :: r in s <==> r in roles
    decreases |roles|
  {
    if |roles| == 0 then {}
    else RoleSet(roles[..|roles| - 1]) + {roles[|roles| - 1]}
  }

  /** NewRouteAuth. */
  function NewRouteAuth(roles: seq<string>, checkEmail: bool): (a: RouteAuth)
    ensures forall r :: r in a.roles <==> r in roles
    ensures a.checkEmail == checkEmail
  {
    RouteAuth(RoleSet(roles), checkEmail)
  }

  /** The handlers routes dispatch to. */
  datatype Handler =
    | GenerateTokens | RefreshTokens | CreateUser | GetUsers
    | GetUserByID | UpdateUser | DeleteUser | ConfirmUser

  datatype Route = Route(name: string, verb: string, pattern: string, auth: Option<RouteAuth>, handler: Handler)

  /** The routes table, in source order. */
  const Table: seq<Route> := [
    Route("Get Access Token", "POST", "/v1/tokens", None, GenerateTokens),
    Route("Get Refresh Token", "POST", "/v1/tokens/refresh",
          Some(NewRouteAuth([RoleUser, RoleBusiness, RoleAdmin], false)), RefreshTokens),
    Route("Create User", "POST", "/v1/users", None, CreateUser),
    Route("Get Users", "GET", "/v1/users", Some(NewRouteAuth([RoleAdmin], false)), GetUsers),
    Route("Get User By ID", "GET", "/v1/users/{user_id}",
          Some(NewRouteAuth([RoleUser, RoleAdmin], true)), GetUserByID),
    Route("Update User By ID", "PUT", "/v1/users/{user_id}",
          Some(NewRouteAuth([RoleUser, RoleAdmin], true)), UpdateUser),
    Route("Delete User By ID", "DELETE", "/v1/users/{user_id}", Some(NewRouteAuth([RoleAdmin], false)), DeleteUser),
    Route("Confirm User", "GET", "/v1/users/{user_id}/confirm", None, ConfirmUser)
  ]

  /** The policy of every route of the table. */
  lemma TablePolicy()
    ensures |Table| == 8
    ensures Table[0].verb == "POST" && Table[0].pattern == "/v1/tokens" && Table[0].auth.None?
    ensures Table[1].verb == "POST" && Table[1].pattern == "/v1/tokens/refresh"
    ensures Table[1].auth == Some(RouteAuth({"user", "business", "admin"}, false))
    ensures Table[2].verb == "POST" && Table[2].pattern == "/v1/users" && Table[2].auth.None?
    ensures Table[3].verb == "GET" && Table[3].pattern == "/v1/users"
    ensures Table[3].auth == Some(RouteAuth({"admin"}, false))
    ensures Table[4].verb == "GET" && Table[4].pattern == "/v1/users/{user_id}"
    ensures Table[4].auth == Some(RouteAuth({"user", "admin"}, true))
    ensures Table[5].verb == "PUT" && Table[5].pattern == "/v1/users/{user_id}"
    ensures Table[5].auth == Some(RouteAuth({"user", "admin"}, true))
    ensures Table[6].verb == "DELETE" && Table[6].pattern == "/v1/users/{user_id}"
    ensures Table[6].auth == Some(RouteAuth({"admin"}, false))
    ensures Table[7].verb == "GET" && Table[7].pattern == "/v1/users/{user_id}/confirm" && Table[7].auth.None?
  {
    assert RoleSet([RoleUser, RoleBusiness, RoleAdmin]) == {"user", "business", "admin"};
    assert RoleSet([RoleUser, RoleAdmin]) == {"user", "admin"};
    assert RoleSet([RoleAdmin]) == {"admin"};
  }

  /** Role "business" is admitted by no policy of a /v1/users route. */
  lemma BusinessReachesNoUsersRoute(i: int)
    requires 0 <= i < |Table| && Table[i].auth.Some?
    requires |Table[i].pattern| >= 9 && Table[i].pattern[..9] == "/v1/users"
    ensures RoleBusiness !in Table[i].auth.value.roles
  {
    TablePolicy();
    assert Table[1].pattern[4] == 't';
  }

  /** Role "client" is admitted by no policy of the table at all. */
  lemma NoPolicyListsClient(i: int)
    requires 0 <= i < |Table| && Table[i].auth.Some?
    ensures "client" !in Table[i].auth.value.roles
  {
    TablePolicy();
  }

  /** What the router does before the handler runs. */
  datatype Admission = Open | Gated(decision: Decision)

  /** NewRouter: the gate wraps a handler exactly when its route declares a policy. */
  function Dispatch(route: Route, keys: Keys, standard: Claims -> Check, audience: string, header: string): (a: Admission)
    ensures a.Open? <==> route.auth.None?
    ensures route.auth.Some? ==>
              a == Gated(Validate(keys, standard, audience, route.auth.value.roles, route.auth.value.checkEmail, header))
  {
    match route.auth
    case None => Open
    case Some(policy) => Gated(Validate(keys, standard, audience, policy.roles, policy.checkEmail, header))
  }

  /**
   End to end under honest keys: a token made by Create from claims that pass Valid,
   sent as "Bearer <token>", reaches the post-verification checks with exactly those claims.
   */
  lemma HonestTokenThroughGate(keys: Keys, standard: Claims -> Check, audience: string,
                               roles: set<string>, checkEmail: bool, c: Claims)
    requires HonestKeys(keys)
    requires Create(keys, c).Ok? && ' ' !in Create(keys, c).value
    requires standard(c).Passed? && c.role != "" && c.userID != ""
    ensures var d := Validate(keys, standard, audience, roles, checkEmail, "Bearer " + Create(keys, c).value);
            match ClaimsGate(c, audience, roles, checkEmail)
            case None => d == Admit(c)
            case Some(e) => d == Refuse(e)
  {
    var t := Create(keys, c).value;
    var h := "Bearer " + t;
    assert h[..6] == "Bearer" && h[6] == ' ' && h[7..] == t;
    CapitalisedBearer();
    BearerHeaderShape(h);
    CreateThenVerify(keys, standard, c);
  }

  /**
   No route of the table admits claims whose role is "client": whatever the header,
   the gate either stays open (unprotected route) or does not admit such claims.
   */
  lemma GateNeverAdmitsClient(i: int, keys: Keys, standard: Claims -> Check, audience: string, header: string)
    requires 0 <= i < |Table|
    ensures var a := Dispatch(Table[i], keys, standard, audience, header);
            a.Gated? && a.decision.Admit? ==> a.decision.claims.role != "client"
  {
    if Table[i].auth.Some? {
      NoPolicyListsClient(i);
    }
  }
}

=== FILE: strs.dfy ===
/** A value that may be absent: Go's "comma ok" lookups and nil results. */
module Opt {
  datatype Option<+T> = None | Some(value: T)
}

/**
 The few Go string operations the core relies on, as pure functions:
 strings.Split with a one-character separator, strings.Join, strings.SplitN(_, _, 2),
 strings.ToLower (on ASCII letters) and decimal formatting of naturals,
 together with the facts that tie each one to its inverse.
 */
module Strs {
  import opened Opt

  /** strings.Split(s, string(c)): the pieces of s between the occurrences of c. */
  function Split(s: string, c: char): (parts: seq<string>)
    ensures |parts| >= 1
    ensures forall i :: 0 <= i < |parts| ==> c !in parts[i]
    decreases |s|
  {
    if |s| == 0 then [""]
    else
      var rest := Split(s[1..], c);
      if s[0] == c then [""] + rest
      else [[s[0]] + rest[0]] + rest[1..]
  }

  /** strings.Join(parts, sep). */
  function Join(parts: seq<string>, sep: string): string
  {
    if |parts| == 0 then ""
    else if |parts| == 1 then parts[0]
    else parts[0] + sep + Join(parts[1..], sep)
  }

  /** Joining the pieces of a split with the same separator gives back the string. */
  lemma {:induction false} SplitJoin(s: string, c: char)
    ensures Join(Split(s, c), [c]) == s
    decreases |s|
  {
    if |s| > 0 {
      var rest := Split(s[1..], c);
      SplitJoin(s[1..], c);
      if s[0] == c {
        assert Split(s, c) == [""] + rest;
        assert ([""] + rest)[1..] == rest;
        assert s == [c] + s[1..];
      } else if |rest| == 1 {
        assert Split(s, c) == [[s[0]] + rest[0]];
        assert s == [s[0]] + s[1..];
      } else {
        var parts := Split(s, c);
        assert parts == [[s[0]] + rest[0]] + rest[1..];
        assert parts[1..] == rest[1..];
        assert Join(rest, [c]) == rest[0] + [c] + Join(rest[1..], [c]);
        assert s == [s[0]] + s[1..];
      }
    }
  }

  /** A string without the separator splits into itself. */
  lemma {:induction false} SplitWithoutSeparator(s: string, c: char)
    requires c !in s
    ensures Split(s, c) == [s]
    decreases |s|
  {
    if |s| > 0 {
      SplitWithoutSeparator(s[1..], c);
      assert s == [s[0]] + s[1..];
    }
  }

  /** Splitting at a first separator peels off the piece before it. */
  lemma {:induction false} SplitAtFirst(a: string, c: char, b: string)
    requires c !in a
    ensures Split(a + [c] + b, c) == [a] + Split(b, c)
    decreases |a|
  {
    var s := a + [c] + b;
    if |a| == 0 {
      assert s == [c] + b;
      assert s[1..] == b;
    } else {
      assert s[0] == a[0];
      assert s[1..] == a[1..] + [c] + b;
      SplitAtFirst(a[1..], c, b);
      assert [a[0]] + a[1..] == a;
    }
  }

  /** Splitting a join of separator-free pieces gives back the pieces. */
  lemma {:induction false} JoinSplit(parts: seq<string>, c: char)
    requires |parts| >= 1
    requires forall i :: 0 <= i < |parts| ==> c !in parts[i]
    ensures Split(Join(parts, [c]), c) == parts
    decreases |parts|
  {
    if |parts| == 1 {
      SplitWithoutSeparator(parts[0], c);
    } else {
      JoinSplit(parts[1..], c);
      SplitAtFirst(parts[0], c, Join(parts[1..], [c]));
      assert [parts[0]] + parts[1..] == parts;
    }
  }

  /** The first piece of a split is the longest separator-free prefix. */
  lemma {:induction false} SplitFirstIsPrefix(s: string, c: char)
    ensures |Split(s, c)[0]| <= |s|
    ensures Split(s, c)[0] == s[..|Split(s, c)[0]|]
    ensures |Split(s, c)[0]| < |s| ==> s[|Split(s, c)[0]|] == c
    decreases |s|
  {
    if |s| > 0 {
      SplitFirstIsPrefix(s[1..], c);
    }
  }

  /** The piece of s before the first c: strings.Split(s, string(c))[0]. */
  function Before(s: string, c: char): (r: string)
    ensures c !in r
    ensures |r| <= |s| && r == s[..|r|]
    ensures |r| < |s| ==> s[|r|] == c
  {
    SplitFirstIsPrefix(s, c);
    Split(s, c)[0]
  }

  /**
   strings.SplitN(s, string(c), 2) seen as a cut: None when c does not occur
   (SplitN returns one piece), else the text before and after the first c.
   */
  function Cut(s: string, c: char): (r: Option<(string, string)>)
    ensures r.None? <==> c !in s
    ensures r.Some? ==> c !in r.value.0 && s == r.value.0 + [c] + r.value.1
    decreases |s|
  {
    if |s| == 0 then None
    else if s[0] == c then Some(("", s[1..]))
    else
      match Cut(s[1..], c)
      case None => None
      case Some(pair) => Some(([s[0]] + pair.0, pair.1))
  }

  /** Cutting at the first occurrence of a character absent before it. */
  lemma {:induction false} CutAtFirst(a: string, c: char, b: string)
    requires c !in a
    ensures Cut(a + [c] + b, c) == Some((a, b))
    decreases |a|
  {
    var s := a + [c] + b;
    if |a| == 0 {
      assert s == [c] + b;
    } else {
      assert s[0] == a[0] && s[1..] == a[1..] + [c] + b;
      CutAtFirst(a[1..], c, b);
      assert [a[0]] + a[1..] == a;
    }
  }

  /** unicode.ToLower restricted to ASCII letters. */
  function LowerChar(ch: char): char
  {
    if 'A' <= ch <= 'Z' then (ch as int - 'A' as int + 'a' as int) as char else ch
  }

  /** strings.ToLower on ASCII text. */
  function Lower(s: string): string
  {
    seq(|s|, i requires 0 <= i < |s| => LowerChar(s[i]))
  }

  predicate IsDigit(ch: char)
  {
    '0' <= ch <= '9'
  }

  function DigitChar(d: nat): (ch: char)
    requires d < 10
  {
    (d + '0' as int) as char
  }

  /** fmt's %d for a natural number. */
  function NatToString(n: nat): (s: string)
    ensures |s| >= 1
    ensures forall i :: 0 <= i < |s| ==> IsDigit(s[i])
    decreases n
  {
    if n < 10 then [DigitChar(n)] else NatToString(n / 10) + [DigitChar(n % 10)]
  }

  /** The value of a string of decimal digits, as strconv.Atoi reads it. */
  function DigitsValue(s: string): nat
    requires forall i :: 0 <= i < |s| ==> IsDigit(s[i])
  {
    if |s| == 0 then 0
    else
      assert IsDigit(s[|s| - 1]);
      DigitsValue(s[..|s| - 1]) * 10 + (s[|s| - 1] as int - '0' as int)
  }

  /** Reading back a formatted natural gives the natural. */
  lemma {:induction false} NatToStringRoundTrip(n: nat)
    ensures DigitsValue(NatToString(n)) == n
    decreases n
  {
    if n >= 10 {
      NatToStringRoundTrip(n / 10);
      var s := NatToString(n);
      assert s[..|s| - 1] == NatToString(n / 10);
    }
  }

  /** Number of occurrences of ch in s. */
  function Count(s: string, ch: char): nat
  {
    if |s| == 0 then 0 else (if s[0] == ch then 1 else 0) + Count(s[1..], ch)
  }

  lemma {:induction false} CountAppend(a: string, b: string, ch: char)
    ensures Count(a + b, ch) == Count(a, ch) + Count(b, ch)
    decreases |a|
  {
    if |a| == 0 {
      assert a + b == b;
    } else {
      assert (a + b)[1..] == a[1..] + b;
      CountAppend(a[1..], b, ch);
    }
  }

  lemma {:induction false} CountAbsent(s: string, ch: char)
    requires ch !in s
    ensures Count(s, ch) == 0
    decreases |s|
  {
    if |s| > 0 {
      CountAbsent(s[1..], ch);
    }
  }
}

=== FILE: user_model.dfy ===
/**
 The user record and its validation: a new user (no id) must bring a username and a
 password; an existing user (id set) must not try to change either.
 */
module UserModel {
  import opened Opt

  const MissingCredentials := "Missing Username or Password"
  const CredentialsImmutable := "Can't Modify Username or Password"

  /** A user; `salt` never leaves the service, times are Unix seconds. */
  datatype User = User(
    id: string,
    username: string,
    password: string,
    passwordConfirm: string,
    salt: string,
    confirmed: bool,
    confirmedAt: int,
    createdAt: int)

  /** User.Valid; None means valid. */
  function Valid(u: User): (err: Option<string>)
    ensures u.id == "" && (u.username == "" || u.password == "") <==> err == Some(MissingCredentials)
    ensures u.id != "" && (u.username != "" || u.password != "") <==> err == Some(CredentialsImmutable)
    ensures err.None? <==>
              || (u.id == "" && u.username != "" && u.password != "")
              || (u.id != "" && u.username == "" && u.password == "")
  {
    if |u.id| == 0 && (|u.username| == 0 || |u.password| == 0) then Some(MissingCredentials)
    else if |u.id| > 0 && (|u.username| > 0 || |u.password| > 0) then Some(CredentialsImmutable)
    else None
  }

  /** The two refusals never describe the same user: one needs an id, the other none. */
  lemma RefusalsExclusive(u: User)
    ensures !(Valid(u) == Some(MissingCredentials) && Valid(u) == Some(CredentialsImmutable))
    ensures Valid(u) == Some(MissingCredentials) ==> u.id == ""
    ensures Valid(u) == Some(CredentialsImmutable) ==> u.id != ""
  {
  }
}

=== FILE: users_db.dfy ===
/**
 The users table accessors, with SQL execution abstract: the SET-clause builder, and the
 ID guard, confirmation-time default and secret scrubbing around the INSERT and UPDATE
 queries. A query is a function from the arguments bound to its placeholders to the
 row it returns or the driver error it fails with.
 */
module UsersDb {
  import opened Opt
  import opened Strs
  import opened Database
  import opened UserModel

  const UsersTable := "users"

  // ---------------------------------------------------------------- SET clause

  /** The k-th item (0-based) of a SET clause: the field bound to placeholder $(k+2). */
  function SetItem(field: string, k: nat): string
  {
    " " + field + " = $" + NatToString(k + 2)
  }

  function SetItems(fields: seq<string>): (items: seq<string>)
    ensures |items| == |fields|
    ensures forall k :: 0 <= k < |fields| ==> items[k] == SetItem(fields[k], k)
  {
    seq(|fields|, k requires 0 <= k < |fields| => SetItem(fields[k], k))
  }

  /**
   The clause formSetStatement is meant to build: nothing for no fields, otherwise
   "SET" and the items separated by commas, placeholders counting up from $2.
   */
  function SetStatement(fields: seq<string>): string
  {
    if |fields| == 0 then "" else "SET" + Join(SetItems(fields), ",")
  }

  /** Each item followed by the separator, as the loop accumulates them. */
  function Terminated(items: seq<string>, c: char): string
  {
    if |items| == 0 then "" else Terminated(items[..|items| - 1], c) + items[|items| - 1] + [c]
  }

  lemma {:induction false} JoinSnoc(items: seq<string>, x: string, sep: string)
    requires |items| >= 1
    ensures Join(items + [x], sep) == Join(items, sep) + sep + x
    decreases |items|
  {
    if |items| == 1 {
      assert (items + [x])[1..] == [x];
    } else {
      assert (items + [x])[1..] == items[1..] + [x];
      JoinSnoc(items[1..], x, sep);
    }
  }

  lemma {:induction false} TerminatedIsJoinPlusSeparator(items: seq<string>, c: char)
    requires |items| >= 1
    ensures Terminated(items, c) == Join(items, [c]) + [c]
    decreases |items|
  {
    if |items| > 1 {
      var init := items[..|items| - 1];
      TerminatedIsJoinPlusSeparator(init, c);
      assert items == init + [items[|items| - 1]];
      JoinSnoc(init, items[|items| - 1], [c]);
    }
  }

  /**
   formSetStatement: append " field = $i," per field, then drop the final comma.
   The result is the clause SetStatement describes.
   */
  method FormSetStatement(fields: seq<string>) returns (stmnt: string)
    ensures stmnt == SetStatement(fields)
  {
    if |fields| == 0 {
      return "";
    }
    ghost var items := SetItems(fields);
    stmnt := "SET";
    var i := 0;
    while i < |fields|
      invariant 0 <= i <= |fields|
      invariant stmnt == "SET" + Terminated(items[..i], ',')
    {
      var pair := fields[i] + " = $" + NatToString(i + 2);
      assert items[..i + 1][..i] == items[..i];
      assert Terminated(items[..i + 1], ',') == Terminated(items[..i], ',') + items[i] + ",";
      stmnt := stmnt + " " + pair + ",";
      i := i + 1;
    }
    assert items[..i] == items;
    TerminatedIsJoinPlusSeparator(items, ',');
    ghost var joined := "SET" + Join(items, ",");
    assert stmnt == joined + ",";
    stmnt := stmnt[..|stmnt| - 1];
    assert stmnt == joined;
  }

  /** An item reads back as its field and the number of its placeholder. */
  lemma ItemReadsBack(field: string, k: nat)
    requires '$' !in field
    ensures Cut(SetItem(field, k), '$') == Some((" " + field + " = ", NatToString(k + 2)))
    ensures DigitsValue(NatToString(k + 2)) == k + 2
  {
    assert SetItem(field, k) == (" " + field + " = ") + ['$'] + NatToString(k + 2);
    CutAtFirst(" " + field + " = ", '$', NatToString(k + 2));
    NatToStringRoundTrip(k + 2);
  }

  /**
   The clause parses back: after "SET", splitting on commas gives the items in field
   order, the k-th naming the k-th field and placeholder $(k+2).
   */
  lemma SetStatementReadsBack(fields: seq<string>)
    requires |fields| >= 1
    requires forall k :: 0 <= k < |fields| ==> ',' !in fields[k]
    ensures SetStatement(fields)[..3] == "SET"
    ensures Split(SetStatement(fields)[3..], ',') == SetItems(fields)
  {
    var items := SetItems(fields);
    forall k | 0 <= k < |items|
      ensures ',' !in items[k]
    {
      var d := NatToString(k + 2);
      assert items[k] == " " + fields[k] + " = $" + d;
      assert forall i :: 0 <= i < |d| ==> IsDigit(d[i]);
    }
    JoinSplit(items, ',');
    assert SetStatement(fields)[3..] == Join(items, ",");
  }

  /** The clause never ends in a comma: it ends in the last placeholder's last digit. */
  lemma SetStatementEnding(fields: seq<string>)
    requires |fields| >= 1
    ensures var s := SetStatement(fields); |s| > 0 && IsDigit(s[|s| - 1]) && s[|s| - 1] != ','
  {
    var items := SetItems(fields);
    var n := |fields| - 1;
    var last := SetItem(fields[n], n);
    if |fields| > 1 {
      assert items == items[..n] + [last];
      JoinSnoc(items[..n], last, ",");
    }
    assert Join(items, ",") == (if n == 0 then last else Join(items[..n], ",") + "," + last);
    var d := NatToString(n + 2);
    assert IsDigit(d[|d| - 1]);
  }

  /** Placeholders: the clause holds one '$' per field when no field name contains one. */
  lemma {:induction false} PlaceholderCount(fields: seq<string>)
    requires forall k :: 0 <= k < |fields| ==> '$' !in fields[k]
    ensures Count(SetStatement(fields), '$') == |fields|
  {
    if |fields| > 0 {
      var items := SetItems(fields);
      TerminatedCount(items, fields);
      TerminatedIsJoinPlusSeparator(items, ',');
      CountAppend("SET", Join(items, ","), '$');
      CountAppend(Join(items, ","), ",", '$');
      CountAbsent("SET", '$');
      CountAbsent(",", '$');
    }
  }

  lemma {:induction false} ItemCount(field: string, k: nat)
    requires '$' !in field
    ensures Count(SetItem(field, k), '$') == 1
  {
    var d := NatToString(k + 2);
    assert forall i :: 0 <= i < |d| ==> IsDigit(d[i]);
    assert '$' !in d;
    assert SetItem(field, k) == (" " + field + " = ") + ("$" + d);
    CountAppend(" " + field + " = ", "$" + d, '$');
    CountAppend("$", d, '$');
    CountAbsent(" " + field + " = ", '$');
    CountAbsent(d, '$');
  }

  lemma {:induction false} TerminatedCount(items: seq<string>, fields: seq<string>)
    requires |items| <= |fields|
    requires forall k :: 0 <= k < |fields| ==> '$' !in fields[k]
    requires forall k :: 0 <= k < |items| ==> items[k] == SetItem(fields[k], k)
    ensures Count(Terminated(items, ','), '$') == |items|
    decreases |items|
  {
    if |items| > 0 {
      var n := |items| - 1;
      TerminatedCount(items[..n], fields);
      ItemCount(fields[n], n);
      CountAppend(Terminated(items[..n], ',') + items[n], ",", '$');
      CountAppend(Terminated(items[..n], ','), items[n], '$');
      CountAbsent(",", '$');
    }
  }

  // ---------------------------------------------------------------- Insert / Update

  /** What a users query returns or fails with. */
  datatype Outcome<+T> = Returned(row: T) | Failed(error: DriverError)

  /** Columns returned by UPDATE ... RETURNING; a zero confirmation time is None. */
  datatype UpdatedRow = UpdatedRow(id: string, username: string, confirmed: bool, confirmedAt: Option<int>, createdAt: int)

  /** Columns returned by INSERT ... RETURNING. */
  datatype InsertedRow = InsertedRow(id: string, createdAt: int)

  /** Values bound to the UPDATE placeholders $1..$3. */
  datatype UpdateArgs = UpdateArgs(id: string, confirmed: bool, confirmedAt: int)

  /** Values bound to the INSERT placeholders $1..$5; a zero time is None. */
  datatype InsertArgs = InsertArgs(username: string, password: string, salt: string, confirmed: bool, confirmedAt: Option<int>)

  /** The user after the call, the error if any, and the arguments the query was run with. */
  datatype Saved<+A> = Saved(user: User, error: Option<DbError>, ran: Option<A>)

  const UpdateQuery := "UPDATE users SET confirmed = $2,  confirmed_at = $3 WHERE id = $1 \n\t\t\tRETURNING id, username, confirmed, confirmed_at, created_at"
  const InsertQuery := "INSERT INTO users(username, password, salt, confirmed, confirmed_at) \n\t\t\tVALUES($1, $2, $3, $4, $5) RETURNING id, created_at"

  predicate Scrubbed(u: User)
  {
    u.password == "" && u.passwordConfirm == "" && u.salt == ""
  }

  /**
   User.Update. An empty id is refused without running the query; a confirmation time
   that is not positive is replaced by `now`; a successful update takes the returned
   columns and clears the three secret fields.
   */
  function Update(u: User, now: int, run: UpdateArgs -> Outcome<UpdatedRow>): (r: Saved<UpdateArgs>)
    ensures u.id == "" <==> r.ran.None?
    ensures u.id == "" ==>
              r.error == Some(DbError(ErrorModelInvalid, "Missing ID value", UpdateQuery, UsersTable, NilText)) && r.user == u
    ensures r.ran.Some? ==>
              r.ran.value == UpdateArgs(u.id, u.confirmed, if u.confirmedAt > 0 then u.confirmedAt else now)
    ensures r.error.None? <==> r.ran.Some? && run(r.ran.value).Returned?
    ensures r.ran.Some? && run(r.ran.value).Failed? ==>
              r.error == Some(FormError(run(r.ran.value).error, UpdateQuery, UsersTable)) && r.user == u
    ensures r.error.None? ==> Scrubbed(r.user)
    ensures r.error.None? ==>
              var row := run(r.ran.value).row;
              && r.user.id == row.id && r.user.username == row.username && r.user.confirmed == row.confirmed
              && r.user.createdAt == row.createdAt
              && r.user.confirmedAt == (if row.confirmedAt.Some? then row.confirmedAt.value else u.confirmedAt)
  {
    if u.id == "" then
      Saved(u, Some(DbError(ErrorModelInvalid, "Missing ID value", UpdateQuery, UsersTable, NilText)), None)
    else
      var args := UpdateArgs(u.id, u.confirmed, if u.confirmedAt > 0 then u.confirmedAt else now);
      match run(args)
      case Failed(e) => Saved(u, Some(FormError(e, UpdateQuery, UsersTable)), Some(args))
      case Returned(row) =>
        var stamped := if row.confirmedAt.Some? then row.confirmedAt.value else u.confirmedAt;
        Saved(u.(id := row.id, username := row.username, confirmed := row.confirmed,
                 confirmedAt := stamped, createdAt := row.createdAt,
                 password := "", passwordConfirm := "", salt := ""),
              None, Some(args))
  }

  /**
   User.Insert: the secrets go to the database, never back to the caller; a failed
   insert reports the classified driver error and leaves the user as it was.
   */
  function Insert(u: User, run: InsertArgs -> Outcome<InsertedRow>): (r: Saved<InsertArgs>)
    ensures r.ran == Some(InsertArgs(u.username, u.password, u.salt, u.confirmed,
                                     if u.confirmedAt > 0 then Some(u.confirmedAt) else None))
    ensures r.error.None? <==> run(r.ran.value).Returned?
    ensures r.error.Some? ==> r.error == Some(FormError(run(r.ran.value).error, InsertQuery, UsersTable)) && r.user == u
    ensures r.error.None? ==>
              && Scrubbed(r.user)
              && r.user.id == run(r.ran.value).row.id && r.user.createdAt == run(r.ran.value).row.createdAt
              && r.user.username == u.username && r.user.confirmed == u.confirmed
              && r.user.confirmedAt == u.confirmedAt
  {
    var args := InsertArgs(u.username, u.password, u.salt, u.confirmed,
                           if u.confirmedAt > 0 then Some(u.confirmedAt) else None);
    match run(args)
    case Failed(e) => Saved(u, Some(FormError(e, InsertQuery, UsersTable)), Some(args))
    case Returned(row) =>
      Saved(u.(id := row.id, createdAt := row.createdAt, password := "", passwordConfirm := "", salt := ""),
            None, Some(args))
  }

  /**
   What Update hands back does not depend on the secrets it was given: two users that
   differ only in password, confirmation and salt get the same answer.
   */
  lemma UpdateDoesNotLeakSecrets(u: User, password: string, confirm: string, salt: string, now: int,
                                 run: UpdateArgs -> Outcome<UpdatedRow>)
    requires Update(u, now, run).error.None?
    ensures Update(u.(password := password, passwordConfirm := confirm, salt := salt), now, run)
            == Update(u, now, run)
  {
  }

  /** A looked-up user, or the classified reason there is none. */
  datatype Fetched = Fetched(user: User) | FetchFailed(error: DbError)
}

=== FILE: users_handler.dfy ===
/**
 The users endpoints: path user-id resolution, the ownership rule, account creation,
 update, email confirmation and the confirmation token. Storage, hashing and mail
 delivery are inputs.
 */
module UsersHandler {
  import opened Opt
  import opened ApiErrors
  import opened JwtClaims
  import opened Jwt
  import opened Database
  import opened UserModel
  import opened UsersDb

  /**
   What a users endpoint answers: a status with a user, an error, or a panic from a nil
   dereference (of a nil error handed to the response, or of a nil password hash).
   */
  datatype Reply = Respond(status: int, user: User) | Refused(error: ApiError) | NilError

  const NoPathUser := ApiError(StatusInternalServerError, "User ID in path cannot be retrieved", CodeInternal)
  const NoUserID := ApiError(StatusBadRequest, "No User ID", CodeBadRequestParams)
  const NotOwner := ApiError(StatusForbidden, "You can't modify this resource", CodeForbidden)
  const InvalidUser := ApiError(StatusBadRequest, "invalid user", CodeBadRequestBody)
  const PasswordMismatch := ApiError(StatusBadRequest, "Password confirmation doens't match", CodeBadReqPasswordConfirm)
  const MissingToken := ApiError(StatusBadRequest, "Missing 'token' query parameter", CodeBadRequestParams)
  const ForeignToken := ApiError(StatusForbidden, "Token doesnt belong to user", CodeUnauth)
  const NotConfirmToken := ApiError(StatusForbidden, "This is not a confirm token", CodeUnauth)

  /** The user the default constructor makes: every field empty. */
  const EmptyUser := User("", "", "", "", "", false, 0, 0)

  /** getUserID's two results: the id (empty on error) and the error, if any. */
  datatype Resolved = Resolved(userID: string, error: Option<ApiError>)

  /**
   getUserID: the "user_id" path variable, where "this" names the caller and the empty
   string is refused.
   */
  function GetUserID(claims: Claims, vars: map<string, string>): (r: Resolved)
    ensures "user_id" !in vars ==> r == Resolved("", Some(NoPathUser))
    ensures "user_id" in vars && vars["user_id"] == "this" ==> r == Resolved(claims.userID, None)
    ensures "user_id" in vars && vars["user_id"] == "" ==> r == Resolved("", Some(NoUserID))
    ensures r.error.None? <==> "user_id" in vars && vars["user_id"] != ""
    ensures r.error.None? && vars["user_id"] != "this" ==> r.userID == vars["user_id"]
  {
    if "user_id" !in vars then Resolved("", Some(NoPathUser))
    else
      var id := vars["user_id"];
      if id == "this" then Resolved(claims.userID, None)
      else if id == "" then Resolved("", Some(NoUserID))
      else Resolved(id, None)
  }

  /** The ownership rule: role "user" may only address its own id; other roles are exempt. */
  function Ownership(claims: Claims, userID: string): (err: Option<ApiError>)
    ensures err.Some? <==> claims.role == RoleUser && userID != claims.userID
    ensures err.Some? ==> err.value == NotOwner
  {
    if claims.role == RoleUser && userID != claims.userID then Some(NotOwner) else None
  }

  /** "this" always passes the ownership rule. */
  lemma ThisIsOwned(claims: Claims, vars: map<string, string>)
    requires "user_id" in vars && vars["user_id"] == "this"
    ensures Ownership(claims, GetUserID(claims, vars).userID).None?
  {
  }

  function InternalDb(e: DbError): ApiError
  {
    ApiError(StatusInternalServerError, "Something went wrong: " + Render(e), CodeInternalDB)
  }

  /**
   GetByID: only Generic and Execute database errors are reported; any other database
   error answers 200 with the empty user the lookup left behind.
   */
  function GetByID(haveDb: bool, claims: Claims, vars: map<string, string>, fetch: string -> Fetched): (r: Reply)
    ensures !haveDb ==> r == Refused(NoDatabase)
    ensures haveDb && GetUserID(claims, vars).error.Some? ==> r == Refused(GetUserID(claims, vars).error.value)
    ensures haveDb && GetUserID(claims, vars).error.None? && Ownership(claims, GetUserID(claims, vars).userID).Some? ==>
              r == Refused(NotOwner)
    ensures r.Respond? ==>
              && haveDb && GetUserID(claims, vars).error.None?
              && Ownership(claims, GetUserID(claims, vars).userID).None?
              && r.status == StatusOK
              && var f := fetch(GetUserID(claims, vars).userID);
                 r.user == (if f.Fetched? then f.user else EmptyUser)
    ensures haveDb && GetUserID(claims, vars).error.None? && r.Refused? && r.error.status == StatusInternalServerError ==>
              var f := fetch(GetUserID(claims, vars).userID);
              f.FetchFailed? && f.error.code in {ErrorGeneric, ErrorExecute}
    ensures haveDb && GetUserID(claims, vars).error.None? && Ownership(claims, GetUserID(claims, vars).userID).None? ==>
              var f := fetch(GetUserID(claims, vars).userID);
              && (f.Fetched? ==> r == Respond(StatusOK, f.user))
              && (f.FetchFailed? && f.error.code in {ErrorGeneric, ErrorExecute} ==> r == Refused(InternalDb(f.error)))
              && (f.FetchFailed? && f.error.code !in {ErrorGeneric, ErrorExecute} ==> r == Respond(StatusOK, EmptyUser))
    ensures !r.NilError?
  {
    if !haveDb then Refused(NoDatabase)
    else
      var id := GetUserID(claims, vars);
      if id.error.Some? then Refused(id.error.value)
      else if Ownership(claims, id.userID).Some? then Refused(NotOwner)
      else
        match fetch(id.userID)
        case Fetched(u) => Respond(StatusOK, u)
        case FetchFailed(e) =>
          if e.code == ErrorGeneric || e.code == ErrorExecute then Refused(InternalDb(e))
          else Respond(StatusOK, EmptyUser)
  }

  /** GET /v1/users/this answers with the caller's own record, whatever the caller's role. */
  lemma GetThisAnswersCaller(claims: Claims, fetch: string -> Fetched)
    requires fetch(claims.userID).Fetched?
    ensures GetByID(true, claims, map["user_id" := "this"], fetch) == Respond(StatusOK, fetch(claims.userID).user)
  {
    ThisIsOwned(claims, map["user_id" := "this"]);
  }

  /**
   The database-error mapping of Update (and Delete): ModelInvalid, Generic and Execute
   are mapped; the switch has no default, so every other code leaves the error nil.
   */
  function UpdateDbError(e: DbError): (r: Option<ApiError>)
    ensures r.None? <==> e.code !in {ErrorModelInvalid, ErrorGeneric, ErrorExecute}
    ensures r.Some? ==> r.value.status in {StatusBadRequest, StatusInternalServerError}
    ensures e.code == ErrorModelInvalid ==>
              r == Some(ApiError(StatusBadRequest, "User not valid: " + Render(e), CodeBadRequestBody))
    ensures e.code == ErrorGeneric || e.code == ErrorExecute ==> r == Some(InternalDb(e))
  {
    match e.code
    case ErrorModelInvalid => Some(ApiError(StatusBadRequest, "User not valid: " + Render(e), CodeBadRequestBody))
    case ErrorGeneric => Some(InternalDb(e))
    case ErrorExecute => Some(InternalDb(e))
    case _ => None
  }

  /** The user Update hands to the database: the body with the path id and the caller's confirmation. */
  function UpdateTarget(claims: Claims, vars: map<string, string>, body: User): (u: User)
    ensures u.id == GetUserID(claims, vars).userID && u.confirmed == claims.emailOK
    ensures u.username == body.username && u.password == body.password && u.confirmedAt == body.confirmedAt
  {
    body.(id := GetUserID(claims, vars).userID, confirmed := claims.emailOK)
  }

  /**
   Update: the resolution error of the path id is ignored (its empty id is used), the
   ownership rule runs, then the body is forced onto the path id and the caller's
   confirmation state before validation and storage. `mapDb` is the database-error mapping.
   */
  function UpdateUserWith(mapDb: DbError -> Option<ApiError>, haveDb: bool, claims: Claims,
                          vars: map<string, string>, body: Result<User>,
                          now: int, run: UpdateArgs -> Outcome<UpdatedRow>): (r: Reply)
    ensures !haveDb ==> r == Refused(NoDatabase)
    ensures haveDb && Ownership(claims, GetUserID(claims, vars).userID).Some? ==> r == Refused(NotOwner)
    ensures (&& haveDb && Ownership(claims, GetUserID(claims, vars).userID).None? && body.Ok?
             && UserModel.Valid(UpdateTarget(claims, vars, body.value)).Some?) ==> r == Refused(InvalidUser)
    ensures haveDb && Ownership(claims, GetUserID(claims, vars).userID).None? && body.Err? ==> r == Refused(body.error)
    ensures (&& haveDb && Ownership(claims, GetUserID(claims, vars).userID).None? && body.Ok?
             && UserModel.Valid(UpdateTarget(claims, vars, body.value)).None?) ==>
              var saved := UsersDb.Update(UpdateTarget(claims, vars, body.value), now, run);
              saved.error.Some? && mapDb(saved.error.value).Some? ==> r == Refused(mapDb(saved.error.value).value)
    ensures r.Respond? <==>
              && haveDb && Ownership(claims, GetUserID(claims, vars).userID).None? && body.Ok?
              && UserModel.Valid(UpdateTarget(claims, vars, body.value)).None?
              && UsersDb.Update(UpdateTarget(claims, vars, body.value), now, run).error.None?
    ensures r.Respond? ==>
              && r.status == StatusOK
              && r.user == UsersDb.Update(UpdateTarget(claims, vars, body.value), now, run).user
    ensures r.NilError? <==>
              && haveDb && Ownership(claims, GetUserID(claims, vars).userID).None? && body.Ok?
              && UserModel.Valid(UpdateTarget(claims, vars, body.value)).None?
              && var saved := UsersDb.Update(UpdateTarget(claims, vars, body.value), now, run);
                 saved.error.Some? && mapDb(saved.error.value).None?
  {
    if !haveDb then Refused(NoDatabase)
    else
      var id := GetUserID(claims, vars);
      if Ownership(claims, id.userID).Some? then Refused(NotOwner)
      else
        match body
        case Err(e) => Refused(e)
        case Ok(b) =>
          var u := UpdateTarget(claims, vars, b);
          if UserModel.Valid(u).Some? then Refused(InvalidUser)
          else
            var saved := UsersDb.Update(u, now, run);
            match saved.error
            case None => Respond(StatusOK, saved.user)
            case Some(e) =>
              match mapDb(e)
              case Some(apiErr) => Refused(apiErr)
              case None => NilError
  }

  /** users.Update as written. */
  function UpdateUser(haveDb: bool, claims: Claims, vars: map<string, string>, body: Result<User>,
                      now: int, run: UpdateArgs -> Outcome<UpdatedRow>): (r: Reply)
    ensures r.NilError? <==>
              && haveDb && Ownership(claims, GetUserID(claims, vars).userID).None? && body.Ok?
              && UserModel.Valid(UpdateTarget(claims, vars, body.value)).None?
              && var saved := UsersDb.Update(UpdateTarget(claims, vars, body.value), now, run);
                 saved.error.Some? && saved.error.value.code !in {ErrorModelInvalid, ErrorGeneric, ErrorExecute}
  {
    UpdateUserWith(UpdateDbError, haveDb, claims, vars, body, now, run)
  }

  /** The Update mapping with a default: every other database error is an internal one. */
  function UpdateDbErrorFixed(e: DbError): (r: ApiError)
    ensures UpdateDbError(e).Some? ==> UpdateDbError(e) == Some(r)
    ensures UpdateDbError(e).None? ==> r == InternalDb(e)
  {
    match UpdateDbError(e)
    case Some(apiErr) => apiErr
    case None => InternalDb(e)
  }

  /** users.Update with the total mapping: it always answers, and agrees with the original otherwise. */
  function UpdateUserFixed(haveDb: bool, claims: Claims, vars: map<string, string>, body: Result<User>,
                           now: int, run: UpdateArgs -> Outcome<UpdatedRow>): (r: Reply)
    ensures !r.NilError?
    ensures !UpdateUser(haveDb, claims, vars, body, now, run).NilError? ==>
              r == UpdateUser(haveDb, claims, vars, body, now, run)
  {
    UpdateUserWith(e => Some(UpdateDbErrorFixed(e)), haveDb, claims, vars, body, now, run)
  }

  /** A well-formed uuid that names no user. */
  const AbsentID := "00000000-0000-0000-0000-000000000000"

  /**
   An admin updating a user that does not exist: the row lookup finds nothing, and the
   handler reaches the error response with a nil error.
   */
  lemma UpdateMissingUserPanics(claims: Claims, now: int, run: UpdateArgs -> Outcome<UpdatedRow>)
    requires claims.role == RoleAdmin
    requires forall a :: run(a) == Outcome.Failed(NoRows)
    ensures UpdateUser(true, claims, map["user_id" := AbsentID], Ok(EmptyUser), now, run) == NilError
  {
    var u := UpdateTarget(claims, map["user_id" := AbsentID], EmptyUser);
    assert u.id == AbsentID;
  }

  /** Corrected, the same request answers 500 with the classified database error. */
  lemma UpdateMissingUserAnswered(claims: Claims, now: int, run: UpdateArgs -> Outcome<UpdatedRow>)
    requires claims.role == RoleAdmin
    requires forall a :: run(a) == Outcome.Failed(NoRows)
    ensures var r := UpdateUserFixed(true, claims, map["user_id" := AbsentID], Ok(EmptyUser), now, run);
            r.Refused? && r.error.status == StatusInternalServerError && r.error.code == CodeInternalDB
  {
    var u := UpdateTarget(claims, map["user_id" := AbsentID], EmptyUser);
    assert u.id == AbsentID;
  }

  /** The database-error mapping of Create as written: four codes are mapped, the rest left nil. */
  function CreateDbError(e: DbError, username: string): (r: Option<ApiError>)
    ensures r.None? <==> e.code !in {ErrorAlreadyExists, ErrorModelInvalid, ErrorGeneric, ErrorExecute}
    ensures e.code == ErrorAlreadyExists ==>
              r == Some(ApiError(StatusBadRequest, "User " + username + " already exists: " + Render(e), CodeBadRequestBody))
    ensures e.code == ErrorModelInvalid ==>
              r == Some(ApiError(StatusBadRequest, "User not valid: " + Render(e), CodeBadRequestBody))
    ensures e.code == ErrorGeneric || e.code == ErrorExecute ==> r == Some(InternalDb(e))
  {
    match e.code
    case ErrorAlreadyExists =>
      Some(ApiError(StatusBadRequest, "User " + username + " already exists: " + Render(e), CodeBadRequestBody))
    case ErrorModelInvalid => Some(ApiError(StatusBadRequest, "User not valid: " + Render(e), CodeBadRequestBody))
    case ErrorGeneric => Some(InternalDb(e))
    case ErrorExecute => Some(InternalDb(e))
    case _ => None
  }

  /** A failed insert the classifier calls a connection failure leaves Create with a nil error. */
  lemma InsertConnectionFailureUnmapped(username: string)
    ensures CreateDbError(FormError(PqError("08006", "pq: connection failure"), InsertQuery, UsersTable), username).None?
  {
    ConnectionFailureScenario();
  }

  /** The Create mapping with a default: every database error becomes an answer. */
  function CreateDbErrorFixed(e: DbError, username: string): (r: ApiError)
    ensures e.code == ErrorAlreadyExists || e.code == ErrorModelInvalid ==>
              r.status == StatusBadRequest && r.code == CodeBadRequestBody
    ensures e.code != ErrorAlreadyExists && e.code != ErrorModelInvalid ==>
              r == InternalDb(e)
    ensures CreateDbError(e, username).Some? ==> CreateDbError(e, username) == Some(r)
  {
    match CreateDbError(e, username)
    case Some(apiErr) => apiErr
    case None => InternalDb(e)
  }

  /** bcrypt's hash of a new password, with its salt, or the reason hashing failed. */
  datatype Hashed = Hashed(hash: string, salt: string) | HashFailed(reason: string)

  /** The 500 a failed hash is reported with. */
  function HashError(why: string): ApiError
  {
    ApiError(StatusInternalServerError, "Couldn't generate password: " + why, CodeInternal)
  }

  /** The checks Create makes before hashing: database present, body read, User.Valid, confirmation. */
  predicate CreateChecksPass(haveDb: bool, body: Result<User>)
  {
    haveDb && body.Ok? && UserModel.Valid(body.value).None? && body.value.password == body.value.passwordConfirm
  }

  /** The insertion of the new account: the body with the hash and the salt in place of the password. */
  function InsertHashed(u: User, h: Hashed, run: InsertArgs -> Outcome<InsertedRow>): (r: Saved<InsertArgs>)
    requires h.Hashed?
  {
    Insert(u.(password := h.hash, salt := h.salt), run)
  }

  /**
   Create: database present, body read, User.Valid, password confirmation, hashing,
   insertion, then the confirmation mail (`send`, which also builds the token).
   `mapDb` is the database-error mapping; `hashFailurePanics` says whether a failed hash
   goes on to dereference the missing hash (as written) or is answered with a 500.
   */
  function CreateUserWith(mapDb: (DbError, string) -> Option<ApiError>, hashFailurePanics: bool,
                          haveDb: bool, body: Result<User>, hash: string -> Hashed,
                          run: InsertArgs -> Outcome<InsertedRow>, send: User -> Option<ApiError>): (r: Reply)
    ensures !haveDb ==> r == Refused(NoDatabase)
    ensures haveDb && body.Err? ==> r == Refused(body.error)
    ensures haveDb && body.Ok? && UserModel.Valid(body.value).Some? ==> r == Refused(InvalidUser)
    ensures haveDb && body.Ok? && UserModel.Valid(body.value).None? && body.value.password != body.value.passwordConfirm ==>
              r == Refused(PasswordMismatch)
    ensures CreateChecksPass(haveDb, body) && hash(body.value.password).HashFailed? ==>
              r == (if hashFailurePanics then NilError else Refused(HashError(hash(body.value.password).reason)))
    ensures CreateChecksPass(haveDb, body) && hash(body.value.password).Hashed? ==>
              var saved := InsertHashed(body.value, hash(body.value.password), run);
              && (saved.error.Some? && mapDb(saved.error.value, body.value.username).Some? ==>
                    r == Refused(mapDb(saved.error.value, body.value.username).value))
              && (saved.error.Some? && mapDb(saved.error.value, body.value.username).None? ==> r == NilError)
              && (saved.error.None? && send(saved.user).Some? ==> r == Refused(send(saved.user).value))
    ensures r.Respond? <==>
              && CreateChecksPass(haveDb, body) && hash(body.value.password).Hashed?
              && var saved := InsertHashed(body.value, hash(body.value.password), run);
                 saved.error.None? && send(saved.user).None?
    ensures r.Respond? ==>
              && r.status == StatusCreated && Scrubbed(r.user) && r.user.username == body.value.username
              && r.user == InsertHashed(body.value, hash(body.value.password), run).user
  {
    if !haveDb then Refused(NoDatabase)
    else
      match body
      case Err(e) => Refused(e)
      case Ok(u) =>
        if UserModel.Valid(u).Some? then Refused(InvalidUser)
        else if u.password != u.passwordConfirm then Refused(PasswordMismatch)
        else
          var h := hash(u.password);
          if h.HashFailed? then
            if hashFailurePanics then NilError else Refused(HashError(h.reason))
          else
            var saved := InsertHashed(u, h, run);
            match saved.error
            case Some(e) =>
              (match mapDb(e, u.username)
               case Some(apiErr) => Refused(apiErr)
               case None => NilError)
            case None =>
              match send(saved.user)
              case Some(apiErr) => Refused(apiErr)
              case None => Respond(StatusCreated, saved.user)
  }

  /**
   users.Create as written: a failed hash leaves the password object nil and the handler
   dereferences it, and an unmapped insertion error reaches the response as a nil error.
   */
  function CreateUser(haveDb: bool, body: Result<User>, hash: string -> Hashed,
                      run: InsertArgs -> Outcome<InsertedRow>, send: User -> Option<ApiError>): (r: Reply)
    ensures r.NilError? <==>
              && CreateChecksPass(haveDb, body)
              && (|| hash(body.value.password).HashFailed?
                  || var saved := InsertHashed(body.value, hash(body.value.password), run);
                     saved.error.Some? && CreateDbError(saved.error.value, body.value.username).None?)
  {
    CreateUserWith(CreateDbError, true, haveDb, body, hash, run, send)
  }

  /**
   users.Create corrected: a failed hash is answered with a 500 and every database error is
   mapped. It always answers, and it agrees with the original wherever that one answers.
   */
  function CreateUserFixed(haveDb: bool, body: Result<User>, hash: string -> Hashed,
                           run: InsertArgs -> Outcome<InsertedRow>, send: User -> Option<ApiError>): (r: Reply)
    ensures !r.NilError?
    ensures CreateChecksPass(haveDb, body) && hash(body.value.password).HashFailed? ==>
              r == Refused(HashError(hash(body.value.password).reason))
    ensures r.Respond? <==> CreateUser(haveDb, body, hash, run, send).Respond?
    ensures !CreateUser(haveDb, body, hash, run, send).NilError? ==> r == CreateUser(haveDb, body, hash, run, send)
  {
    CreateUserWith((e, name) => Some(CreateDbErrorFixed(e, name)), false, haveDb, body, hash, run, send)
  }

  /** A well-formed sign-up: no id, a username, and a confirmed password. */
  const NewAccount := EmptyUser.(username := "alice", password := "secret", passwordConfirm := "secret")

  /** As written, a sign-up whose password cannot be hashed panics instead of answering. */
  lemma HashFailurePanics(hash: string -> Hashed, run: InsertArgs -> Outcome<InsertedRow>, send: User -> Option<ApiError>)
    requires hash("secret") == HashFailed("entropy source unavailable")
    ensures CreateUser(true, Ok(NewAccount), hash, run, send) == NilError
  {
    assert UserModel.Valid(NewAccount).None?;
  }

  /** Corrected, the same sign-up is answered with the 500 the handler meant to send. */
  lemma HashFailureAnswered(hash: string -> Hashed, run: InsertArgs -> Outcome<InsertedRow>, send: User -> Option<ApiError>)
    requires hash("secret") == HashFailed("entropy source unavailable")
    ensures CreateUserFixed(true, Ok(NewAccount), hash, run, send)
            == Refused(ApiError(StatusInternalServerError, "Couldn't generate password: entropy source unavailable", CodeInternal))
  {
    assert UserModel.Valid(NewAccount).None?;
  }

  /**
   generateConfirmationToken's claims: no expiry, role user, unconfirmed, a subject
   naming the confirmation resource of the user and the confirm token type.
   */
  function ConfirmationClaims(audience: string, id: string, now: int, userID: string): (c: Claims)
    ensures c.expiresAt == 0 && c.issuedAt == now && c.notBefore == now
    ensures c.role == RoleUser && !c.emailOK && c.userID == userID
    ensures c.subject == "/users/" + userID + "/confirm" && c.tokenType == TokenTypeConfirm
    ensures c.audience == audience && c.issuer == audience && c.id == id && c.authType == AuthTypeBearer
  {
    New(audience, id).(
      emailOK := false,
      expiresAt := 0,
      issuedAt := now,
      notBefore := now,
      userID := userID,
      role := RoleUser,
      subject := "/users/" + userID + "/confirm",
      tokenType := TokenTypeConfirm)
  }

  /** Under honest keys a confirmation token of a user with an id verifies back to its claims. */
  lemma ConfirmationTokenVerifies(keys: Keys, standard: Claims -> Check, audience: string, id: string, now: int, userID: string)
    requires HonestKeys(keys)
    requires Create(keys, ConfirmationClaims(audience, id, now, userID)).Ok?
    requires userID != "" && standard(ConfirmationClaims(audience, id, now, userID)).Passed?
    ensures Verify(keys, standard, Create(keys, ConfirmationClaims(audience, id, now, userID)).value)
            == Ok(ConfirmationClaims(audience, id, now, userID))
  {
    CreateThenVerify(keys, standard, ConfirmationClaims(audience, id, now, userID));
  }

  /** The answer of the confirmation endpoint: the updated user (shown as a page), or an error. */
  datatype ConfirmReply = Confirmed(user: User) | ConfirmRefused(error: ApiError)

  /** The token checks of Confirm as written; None lets the confirmation through. */
  function ConfirmCheck(userID: string, c: Claims): (r: Option<ApiError>)
    ensures r.Some? <==> c.tokenType != TokenTypeConfirm
    ensures r.Some? ==> r.value.status == StatusForbidden && r.value.code == CodeUnauth
    ensures r.Some? ==> r.value == (if userID != c.userID then ForeignToken else NotConfirmToken)
  {
    if userID != c.userID && c.tokenType != TokenTypeConfirm then Some(ForeignToken)
    else if c.tokenType != TokenTypeConfirm then Some(NotConfirmToken)
    else None
  }

  /** The token checks with the evidently intended ownership test. */
  function ConfirmCheckFixed(userID: string, c: Claims): (r: Option<ApiError>)
    ensures r.None? <==> c.tokenType == TokenTypeConfirm && c.userID == userID
    ensures userID != c.userID ==> r == Some(ForeignToken)
    ensures r.Some? ==> r.value.status == StatusForbidden && r.value.code == CodeUnauth
  {
    if userID != c.userID then Some(ForeignToken)
    else if c.tokenType != TokenTypeConfirm then Some(NotConfirmToken)
    else None
  }

  /** The mapping of a failed confirmation update. */
  function ConfirmDbError(e: DbError): (r: ApiError)
    ensures e.code == ErrorNoRows <==> r.status == StatusNotFound
    ensures e.code != ErrorNoRows ==> r == InternalDb(e)
  {
    if e.code == ErrorNoRows then ApiError(StatusNotFound, "User is not registered", CodeResourceNotFound)
    else InternalDb(e)
  }

  /**
   Confirm with the token check as a parameter: database present, path user id present,
   "t" query value present, token verified, token checked, then the user is marked
   confirmed. The rendering of the confirmation page is not part of this model.
   */
  function ConfirmWith(check: (string, Claims) -> Option<ApiError>, haveDb: bool, vars: map<string, string>,
                       t: string, keys: Keys, standard: Claims -> Check, now: int,
                       run: UpdateArgs -> Outcome<UpdatedRow>): (r: ConfirmReply)
    ensures !haveDb ==> r == ConfirmRefused(NoDatabase)
    ensures haveDb && "user_id" !in vars ==> r == ConfirmRefused(NoPathUser)
    ensures haveDb && "user_id" in vars && t == "" ==> r == ConfirmRefused(MissingToken)
    ensures haveDb && "user_id" in vars && t != "" && Verify(keys, standard, t).Err? ==>
              r == ConfirmRefused(Verify(keys, standard, t).error)
    ensures haveDb && "user_id" in vars && t != "" && Verify(keys, standard, t).Ok?
              && check(vars["user_id"], Verify(keys, standard, t).value).Some? ==>
              r == ConfirmRefused(check(vars["user_id"], Verify(keys, standard, t).value).value)
    ensures (&& haveDb && "user_id" in vars && t != "" && Verify(keys, standard, t).Ok?
             && check(vars["user_id"], Verify(keys, standard, t).value).None?) ==>
              var saved := UsersDb.Update(EmptyUser.(id := vars["user_id"], confirmed := true), now, run);
              saved.error.Some? ==> r == ConfirmRefused(ConfirmDbError(saved.error.value))
    ensures r.Confirmed? <==>
              && haveDb && "user_id" in vars && t != "" && Verify(keys, standard, t).Ok?
              && check(vars["user_id"], Verify(keys, standard, t).value).None?
              && UsersDb.Update(EmptyUser.(id := vars["user_id"], confirmed := true), now, run).error.None?
    ensures r.Confirmed? ==>
              r.user == UsersDb.Update(EmptyUser.(id := vars["user_id"], confirmed := true), now, run).user
  {
    if !haveDb then ConfirmRefused(NoDatabase)
    else if "user_id" !in vars then ConfirmRefused(NoPathUser)
    else if |t| == 0 then ConfirmRefused(MissingToken)
    else
      match Verify(keys, standard, t)
      case Err(e) => ConfirmRefused(e)
      case Ok(c) =>
        match check(vars["user_id"], c)
        case Some(e) => ConfirmRefused(e)
        case None =>
          var saved := UsersDb.Update(EmptyUser.(id := vars["user_id"], confirmed := true), now, run);
          match saved.error
          case Some(e) => ConfirmRefused(ConfirmDbError(e))
          case None => Confirmed(saved.user)
  }

  /** users.Confirm as written. */
  function Confirm(haveDb: bool, vars: map<string, string>, t: string, keys: Keys, standard: Claims -> Check,
                   now: int, run: UpdateArgs -> Outcome<UpdatedRow>): (r: ConfirmReply)
    ensures (&& r.ConfirmRefused? && haveDb && "user_id" in vars && t != "" && Verify(keys, standard, t).Ok?
             && r.error.status == StatusForbidden) ==> Verify(keys, standard, t).value.tokenType != TokenTypeConfirm
  {
    ConfirmWith(ConfirmCheck, haveDb, vars, t, keys, standard, now, run)
  }

  /** users.Confirm with the ownership test restored. */
  function ConfirmFixed(haveDb: bool, vars: map<string, string>, t: string, keys: Keys, standard: Claims -> Check,
                        now: int, run: UpdateArgs -> Outcome<UpdatedRow>): (r: ConfirmReply)
    ensures r.Confirmed? ==>
              && "user_id" in vars && Verify(keys, standard, t).Ok?
              && Verify(keys, standard, t).value.userID == vars["user_id"]
              && Verify(keys, standard, t).value.tokenType == TokenTypeConfirm
  {
    ConfirmWith(ConfirmCheckFixed, haveDb, vars, t, keys, standard, now, run)
  }

  /**
   As written, a confirmation token issued to one user confirms another: with user B in
   the path and A's honest token, the update is run for B.
   */
  lemma ForeignConfirmationAccepted(keys: Keys, standard: Claims -> Check, audience: string, id: string, now: int,
                                    a: string, b: string, run: UpdateArgs -> Outcome<UpdatedRow>)
    requires HonestKeys(keys)
    requires Create(keys, ConfirmationClaims(audience, id, now, a)).Ok?
    requires Create(keys, ConfirmationClaims(audience, id, now, a)).value != ""
    requires a != "" && b != "" && a != b
    requires standard(ConfirmationClaims(audience, id, now, a)).Passed?
    requires forall args :: run(args).Returned?
    ensures var t := Create(keys, ConfirmationClaims(audience, id, now, a)).value;
            var r := Confirm(true, map["user_id" := b], t, keys, standard, now, run);
            && r.Confirmed?
            && UsersDb.Update(EmptyUser.(id := b, confirmed := true), now, run).ran == Some(UpdateArgs(b, true, now))
  {
    var t := Create(keys, ConfirmationClaims(audience, id, now, a)).value;
    ConfirmationTokenVerifies(keys, standard, audience, id, now, a);
  }

  /** Corrected, the same request is refused as a foreign token. */
  lemma ForeignConfirmationRefused(keys: Keys, standard: Claims -> Check, audience: string, id: string, now: int,
                                   a: string, b: string, run: UpdateArgs -> Outcome<UpdatedRow>)
    requires HonestKeys(keys)
    requires Create(keys, ConfirmationClaims(audience, id, now, a)).Ok?
    requires a != "" && a != b
    requires standard(ConfirmationClaims(audience, id, now, a)).Passed?
    ensures var t := Create(keys, ConfirmationClaims(audience, id, now, a)).value;
            t != "" ==> ConfirmFixed(true, map["user_id" := b], t, keys, standard, now, run) == ConfirmRefused(ForeignToken)
  {
    ConfirmationTokenVerifies(keys, standard, audience, id, now, a);
  }
}
